=== FILE: README.md ===
# SSAT vocabulary trainer: quiz and mastery engine

This project models the core of a single-page flash-card trainer for SSAT
vocabulary. The source is `app.js`. The model covers:

- how the next word and question kind are chosen;
- how a multiple-choice question is built: rejection-sampled distractors, a
  Fisher–Yates shuffle, and the blanked-out cloze stem;
- how an answer is graded into the per-word progress map and the statistics
  record;
- the "don't know" action and the bookmark toggle;
- the mastered/learning recount;
- the dashboard arithmetic: rounded accuracy, goal percentage and daily
  pacing target, the five-word error hotlist, and the seven-day window;
- the settings actions: saving the goal, importing, and resetting;
- previous/next card navigation.

Modules, one file each:

| module | file | contents |
|---|---|---|
| `Wrappers` | `wrappers.dfy` | `Option` and `Result` |
| `Vocab` | `vocab.dfy` | catalog entries, progress records, statistics, the store, and the get-or-create defaults |
| `Text` | `text.dfy` | case-insensitive first-match replacement and the string order of `sort()` on date keys |
| `Quiz` | `quiz.dfy` | type rotation, distractor sampling, shuffle, question building, word selection |
| `Grading` | `grading.dfy` | `grade`, `markUnknown`, `toggleBookmark`, `recalcCounts` |
| `Dashboard` | `dashboard.dfy` | accuracy, goal panel, hotlist, seven-day keys |
| `Settings` | `settings.dfy` | `saveGoal`, `importData`, `resetAll`, card navigation |

Conventions of the model:

- **Random draws.** Every `Math.random()` call is an explicit natural
  number. Picking from `n` items with `Math.floor(Math.random() * n)` becomes
  `draw % n`, so every item is reachable and the functions are total.
- **The sampling loop.** The unbounded `while (choiceText.length < 3)` loop
  takes a finite list of draws. `None` means the draws ran out before three
  distractors were collected, i.e. the loop would still be running. It also
  covers an empty catalog, where the source's first draw reads an undefined
  entry and throws; the guarded builder reports that case as `EmptyCatalog`.
- **The clock.** `today()`, `Date.now()` and the days left until the
  deadline are parameters.
- **JavaScript truthiness.** A missing or empty list is the empty string
  where the source reads `xs && xs[0]` (`First`). `a || b` on strings skips
  the empty string (`OrElse`). A missing record, day or per-kind counter is
  read as its zero default (`RecordOf`, `DayOf`, `AccOf`).
- **Object key order.** The order of `Object.entries(progress)` and
  `Object.keys(dailyStats)` is an explicit `keys` parameter. It lists each
  map key exactly once.
- **Case folding.** The case-insensitive `RegExp(w.word, 'i')` replacement
  folds ASCII letters only, and treats the word as a literal pattern.
- **Encoded characters.** The antonym placeholder is the em dash `—`
  (U+2014). The synonym and antonym stems use curly quotes `“ ”`. The source
  file shows both as mis-decoded byte sequences; the model uses the
  characters they encode.

Behaviour that follows the code where a reading of the design might differ:

- A skipped question still counts as an attempt for the day and the kind.
  It also stamps `lastSeen`/`lastType` and creates the word's record, but it
  changes neither `wrong` nor the status.
- `newMastered` counts every learning→mastered transition. A word answered
  right, wrong, right on one day counts twice (`Grading.RelapseCountsTwice`).
- Antonym questions draw their distractors from other words' first synonym
  or definition, exactly as synonym questions do.
- Hotlist ties are ordered by the progress map's key order, because
  `Array.prototype.sort` is stable.
- `nextQuestion` on an empty catalog reads `WORDS[0].id` with `WORDS[0]`
  undefined and throws. The
  model returns `Failure(EmptyCatalog)` instead.

## Model

| member | source | states |
|---|---|---|
| Quiz.Except | app.js:108 | the filtered kinds are exactly the listed kinds other than the last one, without repeats |
| Quiz.TypePool | app.js:106-108 | the pool holds every kind except the word's last kind, has at least two entries and no repeats (the empty-pool fallback can never fire) |
| Quiz.ChooseType | app.js:105-109 | the chosen kind is never the word's `lastType` |
| Quiz.EveryOtherTypeReachable | app.js:108-109 | every kind other than the last one is chosen by some draw |
| Quiz.SampleDistractors | app.js:126-152 | when the loop stops it holds exactly three distinct strings, each non-empty, different from the answer, and offered by some other catalog word; earlier collected strings are kept in order |
| Quiz.StarvedSamplingNeverCompletes | app.js:126-152 | with fewer than three distinct possible distractors, no sequence of draws ever ends the loop |
| Quiz.ThreeDistractorsComplete | app.js:126-152 | three distinct possible distractors, drawn in turn, end the loop with exactly those three |
| Quiz.EnoughCandidatesCanComplete | app.js:126-152 | with at least three distinct possible distractors some finite sequence of draws ends the loop |
| Quiz.Swap | app.js:158 | the destructuring swap exchanges positions i and j, keeps every other position and the multiset |
| Quiz.Shuffle | app.js:156-159 | the Fisher–Yates pass is a permutation: same length and same multiset of choices |
| Quiz.DistinctPermutation | app.js:156-159 | reordering a repeat-free list keeps it repeat-free |
| Quiz.ChoicesFromDistractors | app.js:132 | three distinct distractors plus the answer, in any order, give four distinct choices with the answer exactly once |
| Quiz.BuildQuestion | app.js:120-161 | a question is produced exactly when sampling completes; then it has the requested kind and word, four distinct choices, the answer exactly once, every other choice a distractor, and the choices are a permutation of the three distractors plus the answer |
| Quiz.CorrectCanLandAnywhere | app.js:155-159 | for each of the four positions some shuffle draws put the answer there |
| Quiz.ClozeFallbackHasBlank | app.js:144-145 | a word without examples gets the carrier sentence, whose cloze stem always contains the blank |
| Text.ReplaceFirstIgnoreCase | app.js:145 | the first case-insensitive occurrence of the word becomes `____` and the rest of the sentence is kept; without an occurrence the sentence is unchanged |
| Text.FindFrom | app.js:145 | the returned position is the first match at or after the start; None means no match anywhere after it |
| Quiz.BuildQuestionGuarded | app.js:126-153 | reports `EmptyCatalog` exactly when the catalog is empty and `Starved` exactly when a non-empty catalog offers fewer than three distinct distractors; otherwise agrees with the unguarded builder |
| Quiz.LearningIds | app.js:114 | the pool is exactly the catalog ids with no mastered record; a word without a record counts as learning |
| Quiz.FindById | app.js:117 | finds an entry iff some catalog entry has the id; the entry found carries that id and is the first catalog entry that does, as `Array.prototype.find` returns |
| Quiz.SelectWord | app.js:113-117 | a word is chosen iff the catalog is non-empty; it is a catalog word, not mastered whenever any catalog word is not mastered, and in review mode (every word mastered) it carries the id of the catalog word the draw indexes |
| Quiz.EveryWordReachableInReview | app.js:115-116 | once every word is mastered, every catalog word can be chosen by some draw |
| Quiz.EveryLearningWordReachable | app.js:114-115 | every non-mastered catalog word is chosen by some draw |
| Quiz.NewQuestionFor | app.js:105-112 | a question is produced iff the catalog is non-empty and the sampling loop for the rotated kind ends on the given draws; it is then well formed, about the given word, of that kind, which differs from the word's last kind; `EmptyCatalog` iff the catalog is empty, `Starved` iff fewer than three distinct distractors exist for that kind |
| Quiz.NextQuestion | app.js:113-119 | fails with `EmptyCatalog` iff the catalog is empty; otherwise a question is produced iff the sampling loop ends for the selected word and its rotated kind, and `Starved` is reported iff that word and kind have fewer than three distinct distractors; a produced question is well formed, about the selected catalog word, of a kind other than that word's last one, and about a non-mastered word whenever one exists |
| Grading.Tally | app.js:223-228 | mastered plus learning equals the catalog size |
| Grading.RecalcCounts | app.js:223-232 | the totals are recomputed from the progress map and sum to the catalog size; days, per-kind counters, goal and deadline are kept |
| Grading.LearningTotalIsPoolSize | app.js:226-227 | the learning total equals the size of the pool `nextQuestion` draws from |
| Grading.TallyIgnoresForeignRecords | app.js:225-228 | records of ids outside the catalog, and anything but the status of catalog words, cannot change the totals |
| Grading.TallyOfEmptyProgress | app.js:226 | with no records every catalog word is learning |
| Grading.Grade | app.js:175-208 | the day and the kind each gain one attempt, plus one correct iff the answer is right and not skipped; other days and kinds are untouched; the record gets `lastType` and `lastSeen` and is created if absent; a right answer adds to `right` and masters the word, a wrong one adds to `wrong` and makes it learning, a skip changes neither; not skipped ⇒ mastered iff right; `newMastered` grows iff a right answer meets a non-mastered word; totals fresh; bookmarks, goal and deadline unchanged |
| Grading.GradePreservesConsistency | app.js:177-202 | grading keeps correct ≤ attempted, newMastered ≤ correct and one spark entry per attempt on every day, correct ≤ attempted for every kind, and "mastered implies answered right at least once" |
| Grading.CorrectOnMasteredAddsNoMastery | app.js:194-198 | answering a mastered word right keeps it mastered and does not add to the day's newly mastered count |
| Grading.RelapseCountsTwice | app.js:194-202 | right, wrong, right on a learning word in one day adds two to that day's newly mastered count |
| Grading.MarkUnknown | app.js:90-97 | the word becomes learning with one more miss and a new `lastSeen`, `right` and `lastType` are kept, the record is created if absent, other records, the statistics record and bookmarks are untouched |
| Grading.MarkUnknownPreservesConsistency | app.js:90-94 | "don't know" keeps the statistics and progress invariants |
| Grading.MarkUnknownLeavesCountsStale | app.js:90-97 | a one-word catalog with that word mastered and fresh totals has stale totals after "don't know" |
| Grading.MarkUnknownRecounted | app.js:90-97 | the same progress change as `markUnknown`, with the totals recounted so they stay fresh |
| Grading.ToggleBookmark | app.js:98-99 | the id's membership flips and no other id changes |
| Grading.ToggleTwiceRestores | app.js:98-99 | toggling the same id twice restores the bookmark set |
| Dashboard.RoundedPercent | app.js:299 | `Math.round(100c/a)`: the nearest integer to 100c/a with halves rounded up, at most 100 when c ≤ a |
| Dashboard.Accuracy | app.js:299 | 0 when nothing was attempted, otherwise the rounded percentage, in [0, 100] when c ≤ a |
| Dashboard.AccuracyExamples | app.js:241 | 0/0 reads 0%, 3/4 reads 75%, 1/8 reads 13%, 2/3 reads 67% |
| Dashboard.TodayFigures | app.js:238-243 | a day with no entry reads as zeros; a day with no attempts reads 0% accuracy; on a day with attempts the accuracy is `Math.round(100·correct/attempted)`, characterised by `2a·r − a ≤ 200c < 2a·r + a`, and at most 100 on consistent statistics |
| Dashboard.KindAccuracy | app.js:281-285 | a kind never attempted reads 0; otherwise `Math.round(100·c/a)` of that kind's counters, characterised by `2a·r − a ≤ 200c < 2a·r + a`; at most 100 on consistent statistics |
| Dashboard.DailyTarget | app.js:268-270 | the fewest words per day that cover what is left of the goal within at least one day, and 0 iff the goal is already reached |
| Dashboard.DailyTargetExample | app.js:268-270 | goal 300 with 120 mastered needs 18 a day over 10 days and 180 with the deadline passed |
| Dashboard.GoalPanel | app.js:263-278 | no goal is shown iff the goal is not positive; below the goal the percentage is `Math.round(100·mastered/goal)` (`2g·p − g ≤ 200m < 2g·p + g`); it is capped at 100 and reaches 100 once the goal is met; a daily target appears iff a non-empty deadline is set, and is the ceiling target |
| Dashboard.Entries | app.js:288 | one entry per progress key, in key order, with that record's error count |
| Dashboard.SortByWrong | app.js:289 | the sort is a permutation ordered by non-increasing error count |
| Dashboard.SortKeepsTies | app.js:289 | the sort is stable: entries with equal error counts keep their key order |
| Dashboard.Hotlist | app.js:288-289 | at most five entries, as many as there are records up to five, ordered by error count, each carrying its record's count, and no record left out has more errors than the last one listed |
| Dashboard.HotlistTiesInKeyOrder | app.js:288-289 | among the five shown, records with equal error counts keep the progress map's key order: for each count, the shown records with that count are a prefix of all records with that count, in key order |
| Dashboard.HotlistView | app.js:291-297 | one item per hotlist entry whose id is in the catalog, in hotlist order: item i is that entry's catalog word and error count; unknown ids are skipped, and with every id present nothing is dropped |
| Dashboard.KnownPositions | app.js:292-293 | the entries that get an item: exactly the positions whose id is in the catalog, strictly ascending |
| Dashboard.ShownFrom | app.js:291-297 | the items for the entries from a position on, item i being the word and count of the i-th known position |
| Dashboard.SortKeys | app.js:256 | the day keys sorted strictly ascending, as a permutation, in code-point order (equal to the UTF-16 code-unit order of `sort()` on the ISO date keys `grade` writes) |
| Dashboard.RecentDays | app.js:256 | the latest seven days (or all, if fewer), ascending, each an existing day, every other day earlier than the first shown |
| Dashboard.RecentDaysIgnoresKeyOrder | app.js:256 | the window depends only on which days exist, not on the order they are enumerated |
| Dashboard.SortedWithSameKeysEqual | app.js:256 | two strictly sorted key lists with the same members are equal |
| Text.BeforeTransitive | app.js:256 | the code-point order on strings is transitive |
| Text.BeforeTotal | app.js:256 | any two different strings are ordered one way or the other |
| Settings.SaveGoal | app.js:376-382 | the goal changes only to a positive parsed value; the deadline is always replaced, absent when the field is empty; counts, days and per-kind counters are kept |
| Settings.SaveGoalKeepsGoalSet | app.js:378 | a positive goal can never be cleared, so the goal panel keeps showing progress |
| Settings.SaveGoalIdempotent | app.js:376-382 | saving the same inputs twice equals saving them once |
| Settings.ImportData | app.js:391-405 | an unparsable file changes nothing; each present field replaces the current one wholesale and an absent one keeps it; totals are recounted; bookmarks are untouched |
| Settings.ExportImportRoundTrip | app.js:383-398 | importing the document just exported gives back the same store when its totals were fresh |
| Settings.ImportIdempotent | app.js:395-400 | importing the same document twice equals importing it once |
| Settings.ResetAll | app.js:406-413 | without confirmation nothing changes; with it progress is empty, days and per-kind counters are zero, the goal is 300 with no deadline, 0 mastered and the whole catalog learning; bookmarks are kept |
| Settings.ResetRestartsEverything | app.js:406-411 | after a reset the invariants hold, the totals are fresh and every catalog word is back in the session pool |
| Settings.NextCard | app.js:47 | the next index stays inside the catalog, steps forward and wraps from the last card to the first; an empty catalog yields no index |
| Settings.PrevCard | app.js:46 | the previous index stays inside the catalog, steps back and wraps from the first card to the last; an empty catalog yields no index |
| Settings.PrevNextInverse | app.js:46-47 | previous undoes next and next undoes previous on every valid index |

## Left out

- Rendering, the DOM, event binding, tab switching and the card flip are not modelled: they are UI.
- Canvas charts are not modelled: the donut, the sparkline, the stacked bar, the floating-point seven-day accuracy series and the per-kind bars are drawing code over numbers the model already computes.
- `localStorage`, `fetch`, `FileReader`, `Blob` and JSON text are not modelled: they are I/O. `init` and the persisted copies of the store are left out with them.
- The ordering of saves around `recalcCounts` is not modelled: it only affects what is written to storage.
- `parseInt` is not modelled: `saveGoal` receives the parsed integer, or None for NaN.
- Date arithmetic is not modelled: `today()` and `Date.now()` are parameters, and the goal panel receives the rounded-up number of days left.
- `Math.random` is replaced by explicit draws.
- `registerSW` and the service worker (`sw.js`) are left out: they cache files and are not part of the engine.
- `exportData` is modelled only as the document it writes (`Settings.ExportDoc`), not as a download.
- `Settings.ImportData`: the imported progress and statistics are assumed to have the store's shape. A document with missing inner fields is not modelled. On such a document (say `{"stats":{}}`) the source replaces and persists `stats` (app.js:398-399), then `recalcCounts` throws reading `stats.overall` (app.js:229), the handler reports "Invalid file" (app.js:402) with the state already changed, and later `grade` calls throw (app.js:177).
- `Grading.Grade`: the free-text path (`submitInput`, which trims the typed answer) and the feedback text are not modelled; the answer arrives as a string.
- `Grading.Grade`: it always receives a question, so a skip with no current question is not modelled. With an empty catalog (the fallback at app.js:23) the Quiz tab's `buildQuestion` throws (app.js:128, 138 or 149, depending on the kind) and leaves `q` null; Skip then calls `grade(null, true)`, which creates today's entry and raises `attempted` and `spark` (app.js:177-179) before throwing on `q.type` (app.js:185), so an attempt is counted with no matching per-kind attempt.
- `Quiz.SampleDistractors`: the unbounded loop is modelled over a finite list of draws, so non-termination shows as `None` for every finite list (`Quiz.StarvedSamplingNeverCompletes`) rather than as divergence.
- `Quiz.SampleDistractors`: with an empty catalog the source throws a `TypeError` on its first draw (`all[0]` is undefined, app.js:127-128, 137-138 or 148-149, depending on the kind); the sampler returns `None` there like a starved loop, and only `Quiz.BuildQuestionGuarded`, `Quiz.NewQuestionFor` and `Quiz.NextQuestion` tell the case apart as `EmptyCatalog`.
- `Dashboard.HotlistView`: catalog ids are assumed to be strings. `Object.entries(progress)` always yields string keys and the lookup at app.js:292 uses `===`, so with numeric catalog ids the source's hotlist is always empty, whereas the model shows every entry whose id is in the catalog.
- `Text.Before`: it is code-point order, whereas `sort()` compares UTF-16 code units; the two differ only on keys with characters outside the Basic Multilingual Plane, which the ISO date keys never contain.
- `Text.ReplaceFirstIgnoreCase`: a word containing regular-expression metacharacters is matched literally and case folding covers ASCII only, whereas the source builds a `RegExp` from the word.

## Findings

| source | as written | input that shows it | evidently intended | confidence | as-written member | corrected member |
|---|---|---|---|---|---|---|
| app.js:126-152 | the distractor loop runs until three distinct candidates are found, with no bound and no check that three exist | a catalog of three words asked as a cloze question: only two other words can supply a distractor, so the loop never ends and the page hangs | terminate instead of looping forever; the design asks for a bounded number of attempts followed by padding with a placeholder distractor, whereas the corrected member detects the shortage up front and reports `Starved`, because padding with one repeated placeholder would break the property that the four choices are distinct | high (not executed) | Quiz.StarvedSamplingNeverCompletes | Quiz.BuildQuestionGuarded |
| app.js:90-97 | `markUnknown` changes a word's status and calls `updateStatus` but never `recalcCounts`, so the shown mastered/learning totals go stale | a one-word catalog whose word is mastered with totals 1/0: after "don't know" the word is learning but the totals still read 1 mastered, 0 learning | recount after changing the status, as `grade` does | medium (not executed) | Grading.MarkUnknownLeavesCountsStale | Grading.MarkUnknownRecounted |

=== FILE: dashboard.dfy ===
/**
 The read-only dashboard arithmetic: zero-safe rounded accuracy, the goal
 percentage and daily pacing target, the error hotlist, and the window of
 the seven most recent day keys. Nothing here changes the store.
 */
module Dashboard {

  import opened Wrappers
  import opened Vocab
  import opened Text
  import opened Quiz

  // ---------------------------------------------------------------- percentages

  /**
   `Math.round(100 * c / a)` for a > 0: the nearest integer to 100c/a, with
   halves rounded up.
   */
  function RoundedPercent(c: nat, a: nat): (r: nat)
    requires a > 0
    ensures 2 * a * r - a <= 200 * c < 2 * a * r + a
    ensures c <= a ==> r <= 100
  {
    var r := (200 * c + a) / (2 * a);
    DivBounds(200 * c + a, 2 * a);
    if c <= a then
      assert 2 * a * r <= 200 * c + a <= 200 * a + a;
      RoundedAtMost(a, r);
      r
    else r
  }

  lemma DivBounds(x: nat, d: nat)
    requires d > 0
    ensures d * (x / d) <= x < d * (x / d) + d
  {
  }

  /** Multiplying by a positive factor keeps a strict order. */
  lemma MulMonotone(x: int, y: int, k: int)
    requires k > 0
    ensures x > y ==> x * k > y * k
  {
  }

  lemma RoundedAtMost(a: nat, r: nat)
    requires a > 0 && 2 * a * r <= 201 * a
    ensures r <= 100
  {
    MulMonotone(2 * r, 201, a);
    assert 2 * r * a == 2 * a * r;
  }

  /** `accOf` and the daily accuracy rule: 0 with nothing attempted, else the rounded percentage. */
  function Accuracy(c: nat, a: nat): (r: nat)
    ensures a == 0 ==> r == 0
    ensures a > 0 ==> 2 * a * r - a <= 200 * c < 2 * a * r + a
    ensures c <= a ==> r <= 100
  {
    if a == 0 then 0 else RoundedPercent(c, a)
  }

  lemma AccuracyExamples()
    ensures Accuracy(0, 0) == 0
    ensures Accuracy(3, 4) == 75
    ensures Accuracy(1, 8) == 13
    ensures Accuracy(2, 3) == 67
  {
    assert (200 * 3 + 4) / 8 == 75;
    assert (200 * 1 + 8) / 16 == 13;
    assert (200 * 2 + 3) / 6 == 67;
  }

  /** Today's figures: attempts, accuracy and newly mastered; an absent day reads as zeros. */
  function TodayFigures(s: Stats, day: string): (r: (nat, nat, nat))
    ensures day !in s.dailyStats ==> r == (0, 0, 0)
    ensures DayOf(s, day).attempted == 0 ==> r.1 == 0
    ensures r.0 == DayOf(s, day).attempted && r.2 == DayOf(s, day).newMastered
    ensures StatsConsistent(s) ==> r.1 <= 100
    ensures var d := DayOf(s, day);
      d.attempted > 0 ==> 2 * d.attempted * r.1 - d.attempted <= 200 * d.correct < 2 * d.attempted * r.1 + d.attempted
  {
    var d := DayOf(s, day);
    (d.attempted, Accuracy(d.correct, d.attempted), d.newMastered)
  }

  /** The per-kind accuracy bars; a kind never attempted reads as 0. */
  function KindAccuracy(s: Stats, t: QType): (r: nat)
    ensures AccOf(s.typeAcc, t).a == 0 ==> r == 0
    ensures StatsConsistent(s) ==> r <= 100
    ensures var x := AccOf(s.typeAcc, t);
      x.a > 0 ==> 2 * x.a * r - x.a <= 200 * x.c < 2 * x.a * r + x.a
  {
    Accuracy(AccOf(s.typeAcc, t).c, AccOf(s.typeAcc, t).a)
  }

  // ---------------------------------------------------------------- goal

  /**
   `Math.ceil(max(0, goal - mastered) / max(1, daysLeft))`: the fewest words
   per remaining day that reach the goal.
   */
  function DailyTarget(goal: int, mastered: nat, daysLeft: int): (r: nat)
    ensures var need := if goal > mastered then goal - mastered else 0;
            var days := if daysLeft > 1 then daysLeft else 1;
            r * days >= need && (r == 0 || (r - 1) * days < need)
    ensures r == 0 <==> goal <= mastered
  {
    var need: nat := if goal > mastered then goal - mastered else 0;
    var days: nat := if daysLeft > 1 then daysLeft else 1;
    var r := (need + days - 1) / days;
    DivBounds(need + days - 1, days);
    assert r * days == days * r;
    assert (r - 1) * days == days * r - days;
    r
  }

  lemma DailyTargetExample()
    ensures DailyTarget(300, 120, 10) == 18
    ensures DailyTarget(300, 120, 0) == 180
    ensures DailyTarget(300, 320, 5) == 0
  {
  }

  datatype GoalView =
    | NoGoal                                     // "Set a goal in Settings."
    | GoalProgress(pct: nat, daily: Option<nat>)  // daily is None without a deadline

  /**
   The goal panel. `daysLeft` is the whole number of days to the deadline,
   rounded up, as the caller computes it from the clock.
   */
  function GoalPanel(o: Overall, daysLeft: int): (r: GoalView)
    ensures r.NoGoal? <==> o.goal <= 0
    ensures r.GoalProgress? ==> r.pct <= 100 && (r.pct == 100 <== o.mastered >= o.goal)
    ensures r.GoalProgress? ==> (r.daily.Some? <==> o.deadline.Some? && o.deadline.value != "")
    ensures r.GoalProgress? && r.daily.Some? ==> r.daily.value == DailyTarget(o.goal, o.mastered, daysLeft)
    ensures r.GoalProgress? && o.mastered < o.goal ==>
      2 * o.goal * r.pct - o.goal <= 200 * o.mastered < 2 * o.goal * r.pct + o.goal
  {
    if o.goal > 0 then
      var raw := RoundedPercent(o.mastered, o.goal);
      var pct := if raw < 100 then raw else 100;
      assert o.mastered >= o.goal ==> raw >= 100 by {
        if o.mastered >= o.goal {
          RoundedAtLeast(o.mastered, o.goal, raw);
        }
      }
      if o.deadline.Some? && o.deadline.value != "" then
        GoalProgress(pct, Some(DailyTarget(o.goal, o.mastered, daysLeft)))
      else
        GoalProgress(pct, None)
    else NoGoal
  }

  lemma RoundedAtLeast(c: nat, a: nat, r: nat)
    requires a > 0 && c >= a && 200 * c < 2 * a * r + a
    ensures r >= 100
  {
    MulMonotone(200, 2 * r + 1, a);
    assert (2 * r + 1) * a == 2 * a * r + a;
  }

  // ---------------------------------------------------------------- hotlist

  datatype Entry = Entry(id: Id, wrong: nat)

  /** `Object.entries(progress).map(...)`, in the map's key enumeration order. */
  function Entries(p: Progress, keys: seq<Id>): (r: seq<Entry>)
    requires forall k :: k in keys ==> k in p
    ensures |r| == |keys|
    ensures forall i :: 0 <= i < |r| ==> r[i] == Entry(keys[i], p[keys[i]].wrong)
  {
    if |keys| == 0 then [] else [Entry(keys[0], p[keys[0]].wrong)] + Entries(p, keys[1..])
  }

  predicate SortedByWrong(s: seq<Entry>) {
    forall i, j :: 0 <= i < j < |s| ==> s[i].wrong >= s[j].wrong
  }

  /** Insert before the first entry with no more errors: ties keep e in front. */
  function InsertEntry(e: Entry, s: seq<Entry>): (r: seq<Entry>)
    requires SortedByWrong(s)
    ensures SortedByWrong(r)
    ensures multiset(r) == multiset(s) + multiset{e} && |r| == |s| + 1
  {
    if |s| == 0 || e.wrong >= s[0].wrong then [e] + s
    else
      var rest := InsertEntry(e, s[1..]);
      assert forall k :: 0 <= k < |rest| ==> rest[k].wrong <= s[0].wrong by {
        forall k | 0 <= k < |rest|
          ensures rest[k].wrong <= s[0].wrong
        {
          assert rest[k] in multiset(s[1..]) + multiset{e};
          if rest[k] != e {
            var m :| 0 <= m < |s[1..]| && s[1..][m] == rest[k];
            assert s[m + 1] == rest[k];
          }
        }
      }
      EntryCons(s[0], rest);
      assert s == [s[0]] + s[1..];
      [s[0]] + rest
  }

  lemma EntryCons(x: Entry, s: seq<Entry>)
    requires SortedByWrong(s) && forall k :: 0 <= k < |s| ==> s[k].wrong <= x.wrong
    ensures SortedByWrong([x] + s)
  {
  }

  /** A stable sort by descending error count (insertion sort). */
  function SortByWrong(s: seq<Entry>): (r: seq<Entry>)
    ensures SortedByWrong(r)
    ensures multiset(r) == multiset(s) && |r| == |s|
  {
    if |s| == 0 then []
    else
      assert s == [s[0]] + s[1..];
      InsertEntry(s[0], SortByWrong(s[1..]))
  }

  /** The entries with exactly v errors, in order. */
  function WithWrong(s: seq<Entry>, v: nat): seq<Entry> {
    if |s| == 0 then [] else (if s[0].wrong == v then [s[0]] else []) + WithWrong(s[1..], v)
  }

  lemma {:induction false} WithWrongAppend(a: seq<Entry>, b: seq<Entry>, v: nat)
    ensures WithWrong(a + b, v) == WithWrong(a, v) + WithWrong(b, v)
  {
    if |a| > 0 {
      assert (a + b)[1..] == a[1..] + b;
      WithWrongAppend(a[1..], b, v);
    } else {
      assert a + b == b;
    }
  }

  lemma {:induction false} InsertKeepsTies(e: Entry, s: seq<Entry>, v: nat)
    requires SortedByWrong(s)
    ensures WithWrong(InsertEntry(e, s), v) == WithWrong([e] + s, v)
  {
    if |s| > 0 && e.wrong < s[0].wrong {
      var h, t := s[0], s[1..];
      assert s == [h] + t;
      // e and h have different counts, so at most one of them has v errors
      var we, wh := WithWrong([e], v), WithWrong([h], v);
      assert [e][1..] == [] && [h][1..] == [] && WithWrong([], v) == [];
      assert we == if e.wrong == v then [e] else [];
      assert wh == if h.wrong == v then [h] else [];
      calc {
        WithWrong(InsertEntry(e, s), v);
        { WithWrongAppend([h], InsertEntry(e, t), v); }
        wh + WithWrong(InsertEntry(e, t), v);
        { InsertKeepsTies(e, t, v); WithWrongAppend([e], t, v); }
        wh + (we + WithWrong(t, v));
        we + (wh + WithWrong(t, v));
        { WithWrongAppend([h], t, v); }
        we + WithWrong(s, v);
        { WithWrongAppend([e], s, v); }
        WithWrong([e] + s, v);
      }
    }
  }

  /** Stability: entries with equal error counts keep their relative order. */
  lemma {:induction false} SortKeepsTies(s: seq<Entry>, v: nat)
    ensures WithWrong(SortByWrong(s), v) == WithWrong(s, v)
  {
    if |s| > 0 {
      SortKeepsTies(s[1..], v);
      InsertKeepsTies(s[0], SortByWrong(s[1..]), v);
      WithWrongAppend([s[0]], SortByWrong(s[1..]), v);
      WithWrongAppend([s[0]], s[1..], v);
      assert s == [s[0]] + s[1..];
    }
  }

  /** Every entry is some progress record's id with that record's error count. */
  predicate EntriesOf(p: Progress, r: seq<Entry>) {
    forall i :: 0 <= i < |r| ==> r[i].id in p && r[i].wrong == p[r[i].id].wrong
  }

  /** No record left out of r has more errors than the last entry of r. */
  predicate NoneLeftAbove(p: Progress, r: seq<Entry>) {
    forall k :: k in p && (forall i :: 0 <= i < |r| ==> r[i].id != k) ==> 0 < |r| && p[k].wrong <= r[|r| - 1].wrong
  }

  /**
   The five entries with the most errors, ties in key enumeration order.
   `keys` enumerates the progress map's keys, each once.
   */
  function Hotlist(p: Progress, keys: seq<Id>): (r: seq<Entry>)
    requires Distinct(keys) && forall k :: k in keys <==> k in p
    ensures |r| == if |keys| < 5 then |keys| else 5
    ensures SortedByWrong(r) && EntriesOf(p, r) && NoneLeftAbove(p, r)
  {
    var r := SortByWrong(Entries(p, keys))[..if |keys| < 5 then |keys| else 5];
    HotlistFacts(p, keys, r);
    r
  }

  /** Within the hotlist, records with equal error counts appear in key enumeration order. */
  lemma HotlistTiesInKeyOrder(p: Progress, keys: seq<Id>, v: nat)
    requires Distinct(keys) && forall k :: k in keys <==> k in p
    ensures WithWrong(Hotlist(p, keys), v) <= WithWrong(Entries(p, keys), v)
  {
    var sorted := SortByWrong(Entries(p, keys));
    var n := if |keys| < 5 then |keys| else 5;
    assert Hotlist(p, keys) == sorted[..n];
    assert sorted == sorted[..n] + sorted[n..];
    WithWrongAppend(sorted[..n], sorted[n..], v);
    SortKeepsTies(Entries(p, keys), v);
  }

  lemma HotlistFacts(p: Progress, keys: seq<Id>, r: seq<Entry>)
    requires forall k :: k in keys <==> k in p
    requires r == SortByWrong(Entries(p, keys))[..if |keys| < 5 then |keys| else 5]
    ensures SortedByWrong(r) && EntriesOf(p, r) && NoneLeftAbove(p, r)
  {
    var all := Entries(p, keys);
    var sorted := SortByWrong(all);
    PrefixSorted(sorted, |r|);
    HotlistGenuine(p, keys, all, sorted, r);
    HotlistTop(p, keys, all, sorted, r);
  }

  lemma PrefixSorted(s: seq<Entry>, n: nat)
    requires SortedByWrong(s) && n <= |s|
    ensures SortedByWrong(s[..n])
  {
  }

  lemma HotlistGenuine(p: Progress, keys: seq<Id>, all: seq<Entry>, sorted: seq<Entry>, r: seq<Entry>)
    requires forall k :: k in keys ==> k in p
    requires all == Entries(p, keys) && multiset(sorted) == multiset(all)
    requires |r| <= |sorted| && r == sorted[..|r|]
    ensures EntriesOf(p, r)
  {
    forall i | 0 <= i < |r|
      ensures r[i].id in p && r[i].wrong == p[r[i].id].wrong
    {
      assert r[i] == sorted[i];
      assert sorted[i] in multiset(all);
    }
  }

  lemma HotlistTop(p: Progress, keys: seq<Id>, all: seq<Entry>, sorted: seq<Entry>, r: seq<Entry>)
    requires forall k :: k in keys <==> k in p
    requires all == Entries(p, keys) && multiset(sorted) == multiset(all) && SortedByWrong(sorted)
    requires |sorted| == |all| && |r| == (if |keys| < 5 then |keys| else 5) && r == sorted[..|r|]
    ensures NoneLeftAbove(p, r)
  {
    var n := |r|;
    forall k | k in p && (forall i :: 0 <= i < n ==> r[i].id != k)
      ensures 0 < n && p[k].wrong <= r[n - 1].wrong
    {
      var j :| 0 <= j < |keys| && keys[j] == k;
      assert all[j] in multiset(sorted);
      var m :| 0 <= m < |sorted| && sorted[m] == all[j];
      assert sorted[m].id == k;
      forall i | 0 <= i < n
        ensures sorted[i].id != k
      {
        assert r[i] == sorted[i];
      }
      assert r[n - 1] == sorted[n - 1];
    }
  }

  /**
   The positions at or after `from` whose ids are in the catalog, ascending:
   exactly the hotlist entries that get a list item.
   */
  function KnownPositions(catalog: seq<WordEntry>, h: seq<Entry>, from: nat): (ks: seq<nat>)
    requires from <= |h|
    ensures forall i :: 0 <= i < |ks| ==> from <= ks[i] < |h| && HasId(catalog, h[ks[i]].id)
    ensures forall i, j :: 0 <= i < j < |ks| ==> ks[i] < ks[j]
    ensures forall j :: from <= j < |h| && HasId(catalog, h[j].id) ==> j in ks
    ensures |ks| <= |h| - from
    ensures (forall j :: from <= j < |h| ==> HasId(catalog, h[j].id)) ==> |ks| == |h| - from
    decreases |h| - from
  {
    if from == |h| then []
    else
      var rest := KnownPositions(catalog, h, from + 1);
      if HasId(catalog, h[from].id) then [from] + rest else rest
  }

  /** The list items for the entries at or after `from`, in order. */
  function ShownFrom(catalog: seq<WordEntry>, h: seq<Entry>, from: nat): (r: seq<(string, nat)>)
    requires from <= |h|
    ensures var ks := KnownPositions(catalog, h, from);
      && |r| == |ks|
      && forall i :: 0 <= i < |r| ==>
           FindById(catalog, h[ks[i]].id).Some? &&
           r[i] == (FindById(catalog, h[ks[i]].id).value.word, h[ks[i]].wrong)
    decreases |h| - from
  {
    if from == |h| then []
    else
      var rest := ShownFrom(catalog, h, from + 1);
      match FindById(catalog, h[from].id)
      case Some(w) => [(w.word, h[from].wrong)] + rest
      case None => rest
  }

  /**
   The hotlist as shown: each entry whose id is in the catalog becomes its
   word and error count, in hotlist order; entries with unknown ids are skipped.
   */
  function HotlistView(catalog: seq<WordEntry>, h: seq<Entry>): (r: seq<(string, nat)>)
    ensures var ks := KnownPositions(catalog, h, 0);
      && |r| == |ks|
      && forall i :: 0 <= i < |r| ==>
           FindById(catalog, h[ks[i]].id).Some? &&
           r[i] == (FindById(catalog, h[ks[i]].id).value.word, h[ks[i]].wrong)
    ensures |r| <= |h|
    ensures (forall i :: 0 <= i < |h| ==> HasId(catalog, h[i].id)) ==> |r| == |h|
  {
    ShownFrom(catalog, h, 0)
  }

  // ---------------------------------------------------------------- seven-day window

  predicate StrictlySorted(s: seq<string>) {
    forall i, j :: 0 <= i < j < |s| ==> Before(s[i], s[j])
  }

  lemma SortedCons(x: string, s: seq<string>)
    requires StrictlySorted(s) && forall k :: 0 <= k < |s| ==> Before(x, s[k])
    ensures StrictlySorted([x] + s)
  {
  }

  function InsertKey(k: string, s: seq<string>): (r: seq<string>)
    requires StrictlySorted(s) && k !in s
    ensures StrictlySorted(r)
    ensures multiset(r) == multiset(s) + multiset{k} && |r| == |s| + 1
  {
    if |s| == 0 then [k]
    else if Before(k, s[0]) then
      assert forall j :: 0 <= j < |s| ==> Before(k, s[j]) by {
        forall j | 0 <= j < |s|
          ensures Before(k, s[j])
        {
          if j > 0 {
            BeforeTransitive(k, s[0], s[j]);
          }
        }
      }
      SortedCons(k, s);
      [k] + s
    else
      BeforeTotal(k, s[0]);
      var rest := InsertKey(k, s[1..]);
      assert forall j :: 0 <= j < |rest| ==> Before(s[0], rest[j]) by {
        forall j | 0 <= j < |rest|
          ensures Before(s[0], rest[j])
        {
          assert rest[j] in multiset(s[1..]) + multiset{k};
        }
      }
      SortedCons(s[0], rest);
      assert s == [s[0]] + s[1..];
      [s[0]] + rest
  }

  /** `[...keys].sort()` for keys without repeats. */
  function SortKeys(keys: seq<string>): (r: seq<string>)
    requires Distinct(keys)
    ensures StrictlySorted(r)
    ensures multiset(r) == multiset(keys) && |r| == |keys|
  {
    if |keys| == 0 then []
    else
      assert keys == [keys[0]] + keys[1..];
      var rest := SortKeys(keys[1..]);
      assert keys[0] !in multiset(rest);
      InsertKey(keys[0], rest)
  }

  /**
   `Object.keys(dailyStats).sort().slice(-7)`: the (at most) seven latest day
   keys, oldest first. `keys` enumerates the map's keys, each once.
   */
  function RecentDays(s: Stats, keys: seq<string>): (r: seq<string>)
    requires Distinct(keys) && forall k :: k in keys <==> k in s.dailyStats
    ensures |r| == if |keys| < 7 then |keys| else 7
    ensures StrictlySorted(r)
    ensures forall d :: d in r ==> d in s.dailyStats
    ensures forall d :: d in s.dailyStats && d !in r ==> Before(d, r[0])
  {
    var sorted := SortKeys(keys);
    var n := if |keys| < 7 then |keys| else 7;
    RecentFacts(s, keys, sorted, n);
    sorted[|sorted| - n..]
  }

  lemma RecentFacts(s: Stats, keys: seq<string>, sorted: seq<string>, n: nat)
    requires Distinct(keys) && forall k :: k in keys <==> k in s.dailyStats
    requires sorted == SortKeys(keys) && n == if |keys| < 7 then |keys| else 7
    ensures forall d :: d in sorted[|sorted| - n..] ==> d in s.dailyStats
    ensures forall d :: d in s.dailyStats && d !in sorted[|sorted| - n..] ==> Before(d, sorted[|sorted| - n])
  {
    var r := sorted[|sorted| - n..];
    forall d | d in r
      ensures d in s.dailyStats
    {
      assert d in multiset(sorted);
    }
    forall d | d in s.dailyStats && d !in r
      ensures Before(d, r[0])
    {
      assert d in multiset(sorted);
      var m :| 0 <= m < |sorted| && sorted[m] == d;
      forall i | |sorted| - n <= i < |sorted|
        ensures sorted[i] != d
      {
        assert r[i - (|sorted| - n)] == sorted[i];
      }
    }
  }

  lemma {:induction false} SortedWithSameKeysEqual(a: seq<string>, b: seq<string>)
    requires StrictlySorted(a) && StrictlySorted(b)
    requires forall x :: x in a <==> x in b
    ensures a == b
    decreases |a|
  {
    if |a| > 0 {
      assert a[0] in b;
    }
    if |b| > 0 {
      assert b[0] in a;
    }
    if |a| > 0 && |b| > 0 {
      if a[0] != b[0] {
        assert b[0] in a && a[0] in b;
        var i :| 0 <= i < |a| && a[i] == b[0];
        var j :| 0 <= j < |b| && b[j] == a[0];
        assert Before(a[0], b[0]) by {
          if i == 0 { assert false; }
        }
        assert Before(b[0], a[0]) by {
          if j == 0 { assert false; }
        }
        BeforeTransitive(a[0], b[0], a[0]);
        BeforeIrreflexive(a[0]);
      } else {
        forall x
          ensures x in a[1..] <==> x in b[1..]
        {
          BeforeIrreflexive(a[0]);
          if x in a[1..] {
            var i :| 0 <= i < |a[1..]| && a[1..][i] == x;
            assert a[i + 1] == x && x in b;
            var j :| 0 <= j < |b| && b[j] == x;
            assert j != 0;
            assert b[1..][j - 1] == x;
          }
          if x in b[1..] {
            var i :| 0 <= i < |b[1..]| && b[1..][i] == x;
            assert b[i + 1] == x && x in a;
            var j :| 0 <= j < |a| && a[j] == x;
            assert j != 0;
            assert a[1..][j - 1] == x;
          }
        }
        SortedWithSameKeysEqual(a[1..], b[1..]);
        assert a == [a[0]] + a[1..] && b == [b[0]] + b[1..];
      }
    }
  }

  /** The seven-day window depends only on which days exist, not on key enumeration order. */
  lemma RecentDaysIgnoresKeyOrder(s: Stats, keys1: seq<string>, keys2: seq<string>)
    requires Distinct(keys1) && forall k :: k in keys1 <==> k in s.dailyStats
    requires Distinct(keys2) && forall k :: k in keys2 <==> k in s.dailyStats
    ensures RecentDays(s, keys1) == RecentDays(s, keys2)
  {
    var s1, s2 := SortKeys(keys1), SortKeys(keys2);
    forall x
      ensures x in s1 <==> x in s2
    {
      assert x in s1 <==> x in multiset(s1);
      assert x in s2 <==> x in multiset(s2);
      assert x in keys1 <==> x in multiset(keys1);
      assert x in keys2 <==> x in multiset(keys2);
    }
    SortedWithSameKeysEqual(s1, s2);
    DistinctElements(keys1);
    DistinctElements(keys2);
    assert Elements(keys1) == Elements(keys2);
  }
}

=== FILE: grading.dfy ===
/**
 The grading state machine and the other writers of the progress store:
 `grade`, the manual "don't know" action, the bookmark toggle, and the
 recount of mastered/learning totals over the catalog.
 */
module Grading {

  import opened Wrappers
  import opened Vocab
  import opened Quiz

  // ---------------------------------------------------------------- recount

  /** (mastered, learning) over the catalog entries, one per entry. */
  function Tally(catalog: seq<WordEntry>, p: Progress): (r: (nat, nat))
    ensures r.0 + r.1 == |catalog|
  {
    if |catalog| == 0 then (0, 0)
    else
      var rest := Tally(catalog[1..], p);
      if IsMastered(p, catalog[0].id) then (rest.0 + 1, rest.1) else (rest.0, rest.1 + 1)
  }

  /** The stored totals agree with a fresh recount of the progress store. */
  predicate CountsFresh(catalog: seq<WordEntry>, p: Progress, s: Stats) {
    (s.overall.mastered, s.overall.learning) == Tally(catalog, p)
  }

  /** `recalcCounts`: recompute the totals; everything else in the statistics is kept. */
  function RecalcCounts(catalog: seq<WordEntry>, p: Progress, s: Stats): (r: Stats)
    ensures r.overall.mastered + r.overall.learning == |catalog|
    ensures CountsFresh(catalog, p, r)
    ensures r.dailyStats == s.dailyStats && r.typeAcc == s.typeAcc
    ensures r.overall.goal == s.overall.goal && r.overall.deadline == s.overall.deadline
  {
    var t := Tally(catalog, p);
    s.(overall := s.overall.(mastered := t.0, learning := t.1))
  }

  /** The learning total is the size of the pool the session selector draws from. */
  lemma {:induction false} LearningTotalIsPoolSize(catalog: seq<WordEntry>, p: Progress)
    ensures Tally(catalog, p).1 == |LearningIds(catalog, p)|
  {
    if |catalog| > 0 {
      LearningTotalIsPoolSize(catalog[1..], p);
    }
  }

  /** Only the status of catalog ids matters: records of other ids are ignored. */
  lemma {:induction false} TallyIgnoresForeignRecords(catalog: seq<WordEntry>, p: Progress, q: Progress)
    requires forall i :: 0 <= i < |catalog| ==> IsMastered(p, catalog[i].id) == IsMastered(q, catalog[i].id)
    ensures Tally(catalog, p) == Tally(catalog, q)
  {
    if |catalog| > 0 {
      assert IsMastered(p, catalog[0].id) == IsMastered(q, catalog[0].id);
      assert forall i :: 0 <= i < |catalog[1..]| ==> catalog[1..][i] == catalog[i + 1];
      TallyIgnoresForeignRecords(catalog[1..], p, q);
    }
  }

  /** With no progress at all every catalog entry is learning. */
  lemma {:induction false} TallyOfEmptyProgress(catalog: seq<WordEntry>)
    ensures Tally(catalog, map[]) == (0, |catalog|)
  {
    if |catalog| > 0 {
      TallyOfEmptyProgress(catalog[1..]);
    }
  }

  // ---------------------------------------------------------------- grade

  /** The answer counts as correct: not skipped and exactly the expected string. */
  predicate IsCorrect(q: Question, answer: string, skipped: bool) {
    !skipped && answer == q.correct
  }

  function Bit(b: bool): nat {
    if b then 1 else 0
  }

  /**
   `grade`: record one attempt at question q on calendar day `day` at time
   `now`. A skip still counts as an attempt and still stamps the word's
   last kind and time, creating its record if needed.
   */
  function Grade(catalog: seq<WordEntry>, st: Store, q: Question, answer: string, skipped: bool,
                 day: string, now: int): (r: Store)
    // the day's counters
    ensures day in r.stats.dailyStats
    ensures DayOf(r.stats, day).attempted == DayOf(st.stats, day).attempted + 1
    ensures |DayOf(r.stats, day).spark| == |DayOf(st.stats, day).spark| + 1
    ensures DayOf(r.stats, day).correct == DayOf(st.stats, day).correct + Bit(IsCorrect(q, answer, skipped))
    ensures DayOf(r.stats, day).newMastered
            == DayOf(st.stats, day).newMastered + Bit(IsCorrect(q, answer, skipped) && !IsMastered(st.progress, q.word.id))
    ensures forall d :: d != day ==> (d in r.stats.dailyStats <==> d in st.stats.dailyStats)
    ensures forall d :: d != day && d in st.stats.dailyStats ==> r.stats.dailyStats[d] == st.stats.dailyStats[d]
    // the per-kind counters
    ensures AccOf(r.stats.typeAcc, q.qtype).a == AccOf(st.stats.typeAcc, q.qtype).a + 1
    ensures AccOf(r.stats.typeAcc, q.qtype).c == AccOf(st.stats.typeAcc, q.qtype).c + Bit(IsCorrect(q, answer, skipped))
    ensures forall t :: t != q.qtype ==> AccOf(r.stats.typeAcc, t) == AccOf(st.stats.typeAcc, t)
    // the word's record
    ensures r.progress.Keys == st.progress.Keys + {q.word.id}
    ensures forall id :: id in st.progress && id != q.word.id ==> r.progress[id] == st.progress[id]
    ensures RecordOf(r.progress, q.word.id).lastType == Some(q.qtype)
    ensures RecordOf(r.progress, q.word.id).lastSeen == Some(now)
    ensures RecordOf(r.progress, q.word.id).typeAcc == RecordOf(st.progress, q.word.id).typeAcc
    ensures !skipped ==> (IsMastered(r.progress, q.word.id) <==> answer == q.correct)
    ensures RecordOf(r.progress, q.word.id).right
            == RecordOf(st.progress, q.word.id).right + Bit(IsCorrect(q, answer, skipped))
    ensures RecordOf(r.progress, q.word.id).wrong
            == RecordOf(st.progress, q.word.id).wrong + Bit(!skipped && answer != q.correct)
    ensures skipped ==> RecordOf(r.progress, q.word.id).status == RecordOf(st.progress, q.word.id).status
    // totals, settings and bookmarks
    ensures CountsFresh(catalog, r.progress, r.stats)
    ensures r.stats.overall.goal == st.stats.overall.goal && r.stats.overall.deadline == st.stats.overall.deadline
    ensures r.bookmarks == st.bookmarks
  {
    var ok := IsCorrect(q, answer, skipped);
    var id := q.word.id;
    var d := DayOf(st.stats, day);
    var counted := d.(attempted := d.attempted + 1, spark := d.spark + [1], correct := d.correct + Bit(ok));
    var acc := AccOf(st.stats.typeAcc, q.qtype);
    var acc' := Acc(acc.c + Bit(ok), acc.a + 1);
    var rec := RecordOf(st.progress, id).(lastSeen := Some(now), lastType := Some(q.qtype));
    var rec' :=
      if ok then rec.(right := rec.right + 1, status := Mastered)
      else if !skipped then rec.(wrong := rec.wrong + 1, status := Learning)
      else rec;
    var day' := if ok && rec.status != Mastered then counted.(newMastered := counted.newMastered + 1) else counted;
    var progress := st.progress[id := rec'];
    var stats := st.stats.(dailyStats := st.stats.dailyStats[day := day'], typeAcc := st.stats.typeAcc[q.qtype := acc']);
    Store(progress, RecalcCounts(catalog, progress, stats), st.bookmarks)
  }

  /** Every grade keeps correct <= attempted (daily and per kind) and mastered => right > 0. */
  lemma GradePreservesConsistency(catalog: seq<WordEntry>, st: Store, q: Question, answer: string, skipped: bool,
                                  day: string, now: int)
    requires StatsConsistent(st.stats) && ProgressConsistent(st.progress)
    ensures StatsConsistent(Grade(catalog, st, q, answer, skipped, day, now).stats)
    ensures ProgressConsistent(Grade(catalog, st, q, answer, skipped, day, now).progress)
  {
    var r := Grade(catalog, st, q, answer, skipped, day, now);
    assert DayConsistent(DayOf(st.stats, day));
    assert DayConsistent(DayOf(r.stats, day));
    forall d | d in r.stats.dailyStats
      ensures DayConsistent(r.stats.dailyStats[d])
    {
      if d != day {
        assert r.stats.dailyStats[d] == st.stats.dailyStats[d];
      }
    }
    forall t | t in r.stats.typeAcc
      ensures r.stats.typeAcc[t].c <= r.stats.typeAcc[t].a
    {
      assert AccOf(r.stats.typeAcc, t) == r.stats.typeAcc[t];
    }
  }

  /** A second correct answer to a mastered word adds nothing to the day's newly mastered count. */
  lemma CorrectOnMasteredAddsNoMastery(catalog: seq<WordEntry>, st: Store, q: Question,
                                       day: string, now: int)
    requires IsMastered(st.progress, q.word.id)
    ensures var r := Grade(catalog, st, q, q.correct, false, day, now);
      && DayOf(r.stats, day).newMastered == DayOf(st.stats, day).newMastered
      && IsMastered(r.progress, q.word.id)
  {
  }

  /**
   The day's newly mastered count follows learning-to-mastered edges, not
   words: right, wrong, right on one word the same day counts it twice.
   */
  lemma RelapseCountsTwice(catalog: seq<WordEntry>, st: Store, q: Question, miss: string,
                           day: string, t1: int, t2: int, t3: int)
    requires !IsMastered(st.progress, q.word.id) && miss != q.correct
    ensures var s1 := Grade(catalog, st, q, q.correct, false, day, t1);
            var s2 := Grade(catalog, s1, q, miss, false, day, t2);
            var s3 := Grade(catalog, s2, q, q.correct, false, day, t3);
            DayOf(s3.stats, day).newMastered == DayOf(st.stats, day).newMastered + 2
  {
    var s1 := Grade(catalog, st, q, q.correct, false, day, t1);
    var s2 := Grade(catalog, s1, q, miss, false, day, t2);
    assert !IsMastered(s2.progress, q.word.id);
  }

  // ---------------------------------------------------------------- don't know, bookmarks

  /**
   `markUnknown`: force the word back to learning and count a miss. It is not
   a quiz attempt, and it does not touch the statistics record at all.
   */
  function MarkUnknown(st: Store, id: Id, now: int): (r: Store)
    ensures r.stats == st.stats && r.bookmarks == st.bookmarks
    ensures r.progress.Keys == st.progress.Keys + {id}
    ensures forall other :: other in st.progress && other != id ==> r.progress[other] == st.progress[other]
    ensures !IsMastered(r.progress, id)
    ensures RecordOf(r.progress, id).wrong == RecordOf(st.progress, id).wrong + 1
    ensures RecordOf(r.progress, id).right == RecordOf(st.progress, id).right
    ensures RecordOf(r.progress, id).lastType == RecordOf(st.progress, id).lastType
    ensures RecordOf(r.progress, id).lastSeen == Some(now)
  {
    var rec := RecordOf(st.progress, id);
    st.(progress := st.progress[id := rec.(status := Learning, wrong := rec.wrong + 1, lastSeen := Some(now))])
  }

  lemma MarkUnknownPreservesConsistency(st: Store, id: Id, now: int)
    requires StatsConsistent(st.stats) && ProgressConsistent(st.progress)
    ensures StatsConsistent(MarkUnknown(st, id, now).stats)
    ensures ProgressConsistent(MarkUnknown(st, id, now).progress)
  {
  }

  /** Marking a mastered word unknown leaves the stored totals behind the progress store. */
  lemma MarkUnknownLeavesCountsStale()
    ensures var w := WordEntry("w1", "abate", "verb", ["lessen"], [], [], []);
            var rec := FreshRecord.(status := Mastered, right := 1);
            var st := Store(map["w1" := rec], DefaultStats.(overall := Overall(1, 0, DefaultGoal, None)), {});
            CountsFresh([w], st.progress, st.stats) && !CountsFresh([w], MarkUnknown(st, "w1", 0).progress, st.stats)
  {
    var w := WordEntry("w1", "abate", "verb", ["lessen"], [], [], []);
    var rec := FreshRecord.(status := Mastered, right := 1);
    var st := Store(map["w1" := rec], DefaultStats.(overall := Overall(1, 0, DefaultGoal, None)), {});
    assert [w][1..] == [];
    assert Tally([w], st.progress) == (1, 0);
    var after := MarkUnknown(st, "w1", 0).progress;
    assert !IsMastered(after, "w1");
    assert Tally([w], after) == (0, 1);
  }

  /** `markUnknown` followed by the recount it omits: the totals stay fresh. */
  function MarkUnknownRecounted(catalog: seq<WordEntry>, st: Store, id: Id, now: int): (r: Store)
    ensures r.progress == MarkUnknown(st, id, now).progress && r.bookmarks == st.bookmarks
    ensures CountsFresh(catalog, r.progress, r.stats)
    ensures r.stats.dailyStats == st.stats.dailyStats && r.stats.typeAcc == st.stats.typeAcc
    ensures r.stats.overall.goal == st.stats.overall.goal && r.stats.overall.deadline == st.stats.overall.deadline
  {
    var marked := MarkUnknown(st, id, now);
    marked.(stats := RecalcCounts(catalog, marked.progress, marked.stats))
  }

  /** `toggleBookmark`: the id flips membership; no other id changes. */
  function ToggleBookmark(b: set<Id>, id: Id): (r: set<Id>)
    ensures id in r <==> id !in b
    ensures forall x :: x != id ==> (x in r <==> x in b)
  {
    if id in b then b - {id} else b + {id}
  }

  lemma ToggleTwiceRestores(b: set<Id>, id: Id)
    ensures ToggleBookmark(ToggleBookmark(b, id), id) == b
  {
  }
}

=== FILE: quiz.dfy ===
/**
 The question generator and session selector: type rotation, rejection
 sampling of distractors, the Fisher–Yates shuffle, the cloze stem, and the
 choice of the next word to quiz. Every `Math.random()` draw is an explicit
 natural number; a draw used to pick from n items selects item `draw % n`.
 */
module Quiz {

  import opened Wrappers
  import opened Vocab
  import opened Text

  datatype Question = Question(qtype: QType, word: WordEntry, stem: string, choices: seq<string>, correct: string)

  datatype QuizError =
    | EmptyCatalog  // no word to quiz, or none to draw distractors from (the source throws)
    | Starved       // the catalog cannot supply three distinct distractors
    | OutOfDraws    // the given draws ran out before three distractors were found

  /** Placeholder answer of an antonym question for a word without antonyms. */
  const Dash: string := "—"

  // ---------------------------------------------------------------- type rotation

  /** The kinds in `ts` other than `last`, in order. */
  function Except(ts: seq<QType>, last: Option<QType>): (r: seq<QType>)
    ensures forall t :: t in r <==> t in ts && last != Some(t)
    ensures Distinct(ts) ==> Distinct(r)
    ensures |r| <= |ts|
  {
    if |ts| == 0 then []
    else
      var rest := Except(ts[1..], last);
      if last == Some(ts[0]) then rest
      else
        assert Distinct(ts) ==> ts[0] !in ts[1..];
        [ts[0]] + rest
  }

  lemma ExceptAllTypesKeepsTwo(last: Option<QType>)
    ensures |Except(AllTypes, last)| >= 2
  {
    var f := Except(AllTypes, last);
    assert Syn in AllTypes && Cloze in AllTypes && Ant in AllTypes;
    var a: QType, b: QType;
    match last
    case None => a, b := Syn, Cloze;
    case Some(Syn) => a, b := Cloze, Ant;
    case Some(Cloze) => a, b := Syn, Ant;
    case Some(Ant) => a, b := Syn, Cloze;
    assert a in f && b in f && a != b;
  }

  /** The kinds the next question may have: every kind but the word's last one. */
  function TypePool(last: Option<QType>): (pool: seq<QType>)
    ensures forall t :: t in pool <==> last != Some(t)
    ensures |pool| >= 2 && Distinct(pool)
  {
    var filtered := Except(AllTypes, last);
    assert Distinct(AllTypes);
    AllTypesListsEveryKind();
    ExceptAllTypesKeepsTwo(last);
    if |filtered| == 0 then AllTypes else filtered
  }

  /** The kind of the next question for a word whose last kind was `last`. */
  function ChooseType(last: Option<QType>, draw: nat): (t: QType)
    ensures last != Some(t)
  {
    var pool := TypePool(last);
    pool[draw % |pool|]
  }

  lemma EveryOtherTypeReachable(last: Option<QType>, t: QType)
    requires last != Some(t)
    ensures exists draw: nat :: ChooseType(last, draw) == t
  {
    var pool := TypePool(last);
    var k :| 0 <= k < |pool| && pool[k] == t;
    assert ChooseType(last, k) == t;
  }

  // ---------------------------------------------------------------- answers and stems

  /** The answer a word contributes as a distractor to a question of the given kind. */
  function Candidate(kind: QType, pick: WordEntry): string {
    if kind == Cloze then pick.word else OrElse(First(pick.synonyms), First(pick.definitions))
  }

  function CorrectAnswer(kind: QType, w: WordEntry): string {
    match kind
    case Syn => OrElse(OrElse(First(w.synonyms), First(w.definitions)), w.word)
    case Ant => OrElse(First(w.antonyms), Dash)
    case Cloze => w.word
  }

  /** The sentence a cloze question is cut from: the first example, or a carrier sentence. */
  function ClozeSentence(w: WordEntry): string {
    OrElse(First(w.examples), "I will use the word " + w.word + ".")
  }

  function Stem(kind: QType, w: WordEntry): string {
    match kind
    case Syn => "Choose the best synonym for “" + w.word + "”."
    case Ant => "Choose the best antonym for “" + w.word + "”."
    case Cloze => ReplaceFirstIgnoreCase(ClozeSentence(w), w.word)
  }

  /** `t` occurs literally in `s` at position i. */
  predicate OccursAt(s: string, t: string, i: nat) {
    i + |t| <= |s| && s[i..i + |t|] == t
  }

  /** A word without usable examples still gets a blank in its cloze stem. */
  lemma ClozeFallbackHasBlank(w: WordEntry)
    requires First(w.examples) == ""
    ensures exists i :: OccursAt(Stem(Cloze, w), Blank, i)
  {
    var pre := "I will use the word ";
    var s := ClozeSentence(w);
    assert s == pre + w.word + ".";
    var at := |pre|;
    assert s[at..at + |w.word|] == w.word;
    assert MatchAt(s, w.word, at);
    match FindFrom(s, w.word, 0)
    case None =>
      assert false;
    case Some(i) =>
      var r := Stem(Cloze, w);
      assert r == s[..i] + Blank + s[i + |w.word|..];
      assert OccursAt(r, Blank, i);
  }

  // ---------------------------------------------------------------- distractors

  /** `s` may be offered as a distractor: some other catalog word yields it, and it is not the answer. */
  predicate IsDistractor(catalog: seq<WordEntry>, wid: Id, kind: QType, correct: string, s: string) {
    s != "" && s != correct &&
    exists i :: 0 <= i < |catalog| && catalog[i].id != wid && Candidate(kind, catalog[i]) == s
  }

  /**
   The rejection-sampling loop: each draw picks a catalog word; the draw is
   wasted when the word is the target itself, its candidate is empty, already
   collected, or the correct answer. The loop stops at three distractors; None
   means the draws ran out first.
   */
  function SampleDistractors(catalog: seq<WordEntry>, wid: Id, kind: QType, correct: string,
                             picks: seq<nat>, acc: seq<string>): (r: Option<seq<string>>)
    requires |acc| <= 3 && Distinct(acc)
    requires forall k :: 0 <= k < |acc| ==> IsDistractor(catalog, wid, kind, correct, acc[k])
    ensures r.Some? ==> |r.value| == 3 && Distinct(r.value) && acc <= r.value
    ensures r.Some? ==> forall k :: 0 <= k < 3 ==> IsDistractor(catalog, wid, kind, correct, r.value[k])
    decreases |picks|
  {
    if |acc| == 3 then Some(acc)
    else if |picks| == 0 || |catalog| == 0 then None
    else
      var i := picks[0] % |catalog|;
      var cand := Candidate(kind, catalog[i]);
      if catalog[i].id != wid && cand != "" && cand !in acc && cand != correct then
        SampleDistractors(catalog, wid, kind, correct, picks[1..], acc + [cand])
      else
        SampleDistractors(catalog, wid, kind, correct, picks[1..], acc)
  }

  /** Every distinct distractor the catalog can supply. */
  function Candidates(catalog: seq<WordEntry>, wid: Id, kind: QType, correct: string): (c: set<string>)
    ensures forall s :: s in c <==> IsDistractor(catalog, wid, kind, correct, s)
  {
    set i | 0 <= i < |catalog| && catalog[i].id != wid && Candidate(kind, catalog[i]) != ""
                               && Candidate(kind, catalog[i]) != correct :: Candidate(kind, catalog[i])
  }

  function Elements<T>(s: seq<T>): set<T> {
    set x | x in s
  }

  lemma {:induction false} DistinctElements<T>(s: seq<T>)
    requires Distinct(s)
    ensures |Elements(s)| == |s|
  {
    if |s| > 0 {
      DistinctElements(s[1..]);
      assert Elements(s) == {s[0]} + Elements(s[1..]);
      assert s[0] !in Elements(s[1..]);
    }
  }

  lemma SubsetCard<T>(a: set<T>, b: set<T>)
    requires a <= b
    ensures |a| <= |b|
  {
    if a != {} {
      var x :| x in a;
      SubsetCard(a - {x}, b - {x});
    }
  }

  /** One draw that yields a fresh distractor appends it. */
  lemma SampleTakes(catalog: seq<WordEntry>, wid: Id, kind: QType, correct: string,
                    picks: seq<nat>, acc: seq<string>, c: string)
    requires |acc| < 3 && Distinct(acc)
    requires forall k :: 0 <= k < |acc| ==> IsDistractor(catalog, wid, kind, correct, acc[k])
    requires |picks| > 0 && picks[0] < |catalog| && catalog[picks[0]].id != wid
    requires Candidate(kind, catalog[picks[0]]) == c && IsDistractor(catalog, wid, kind, correct, c) && c !in acc
    ensures SampleDistractors(catalog, wid, kind, correct, picks, acc)
         == SampleDistractors(catalog, wid, kind, correct, picks[1..], acc + [c])
  {
    ModOfSmaller(picks[0], |catalog|);
    DistinctAppend(acc, c);
  }

  lemma ModOfSmaller(i: nat, n: nat)
    requires i < n
    ensures i % n == i
  {
  }

  lemma DistinctAppend<T>(s: seq<T>, x: T)
    requires Distinct(s) && x !in s
    ensures Distinct(s + [x])
  {
  }

  /** With fewer than three distinct candidates no sequence of draws ends the loop. */
  lemma StarvedSamplingNeverCompletes(catalog: seq<WordEntry>, wid: Id, kind: QType, correct: string, picks: seq<nat>)
    requires |Candidates(catalog, wid, kind, correct)| < 3
    ensures SampleDistractors(catalog, wid, kind, correct, picks, []).None?
  {
    var r := SampleDistractors(catalog, wid, kind, correct, picks, []);
    if r.Some? {
      var ds := r.value;
      DistinctElements(ds);
      assert Elements(ds) <= Candidates(catalog, wid, kind, correct);
      SubsetCard(Elements(ds), Candidates(catalog, wid, kind, correct));
      assert false;
    }
  }

  /** A catalog position whose draw yields the given distractor. */
  lemma SourceOf(catalog: seq<WordEntry>, wid: Id, kind: QType, correct: string, c: string) returns (i: nat)
    requires IsDistractor(catalog, wid, kind, correct, c)
    ensures i < |catalog| && catalog[i].id != wid && Candidate(kind, catalog[i]) == c
  {
    i :| 0 <= i < |catalog| && catalog[i].id != wid && Candidate(kind, catalog[i]) == c;
  }

  /** Three distinct distractors, drawn in turn, end the loop. */
  lemma ThreeDistractorsComplete(catalog: seq<WordEntry>, wid: Id, kind: QType, correct: string,
                                 a: string, b: string, d: string) returns (picks: seq<nat>)
    requires a != b && a != d && b != d
    requires IsDistractor(catalog, wid, kind, correct, a)
    requires IsDistractor(catalog, wid, kind, correct, b)
    requires IsDistractor(catalog, wid, kind, correct, d)
    ensures SampleDistractors(catalog, wid, kind, correct, picks, []) == Some([a, b, d])
  {
    var ia := SourceOf(catalog, wid, kind, correct, a);
    var ib := SourceOf(catalog, wid, kind, correct, b);
    var id := SourceOf(catalog, wid, kind, correct, d);
    picks := [ia, ib, id];
    var p1, p2, p3 := picks[1..], picks[2..], picks[3..];
    var s0 := SampleDistractors(catalog, wid, kind, correct, picks, []);
    var s1 := SampleDistractors(catalog, wid, kind, correct, p1, [a]);
    var s2 := SampleDistractors(catalog, wid, kind, correct, p2, [a, b]);
    var s3 := SampleDistractors(catalog, wid, kind, correct, p3, [a, b, d]);
    assert s0 == s1 by {
      assert [] + [a] == [a];
      SampleTakes(catalog, wid, kind, correct, picks, [], a);
    }
    assert s1 == s2 by {
      assert [a] + [b] == [a, b] && p1[1..] == p2;
      SampleTakes(catalog, wid, kind, correct, p1, [a], b);
    }
    assert s2 == s3 by {
      assert [a, b] + [d] == [a, b, d] && p2[1..] == p3;
      SampleTakes(catalog, wid, kind, correct, p2, [a, b], d);
    }
    assert s3 == Some([a, b, d]);
  }

  lemma ThreeMembers<T>(c: set<T>) returns (a: T, b: T, d: T)
    requires |c| >= 3
    ensures a in c && b in c && d in c && a != b && a != d && b != d
  {
    a :| a in c;
    assert |c - {a}| == |c| - 1;
    b :| b in c - {a};
    assert |c - {a} - {b}| == |c| - 2;
    d :| d in c - {a} - {b};
  }

  /** With three or more candidates some finite sequence of draws ends the loop. */
  lemma EnoughCandidatesCanComplete(catalog: seq<WordEntry>, wid: Id, kind: QType, correct: string)
    requires |Candidates(catalog, wid, kind, correct)| >= 3
    ensures exists picks :: SampleDistractors(catalog, wid, kind, correct, picks, []).Some?
  {
    var a, b, d := ThreeMembers(Candidates(catalog, wid, kind, correct));
    var picks := ThreeDistractorsComplete(catalog, wid, kind, correct, a, b, d);
  }

  // ---------------------------------------------------------------- shuffle

  function Swap<T>(s: seq<T>, i: nat, j: nat): (r: seq<T>)
    requires i < |s| && j < |s|
    ensures |r| == |s| && multiset(r) == multiset(s)
    ensures r[i] == s[j] && r[j] == s[i]
    ensures forall k :: 0 <= k < |s| && k != i && k != j ==> r[k] == s[k]
  {
    if i == j then s else s[i := s[j]][j := s[i]]
  }

  /** Fisher–Yates from position i down to 1; the draw for position i picks j = draw % (i + 1). */
  function ShuffleDown<T>(s: seq<T>, i: nat, swaps: seq<nat>): (r: seq<T>)
    requires i < |s| && |swaps| >= i
    ensures |r| == |s| && multiset(r) == multiset(s)
    decreases i
  {
    if i == 0 then s
    else ShuffleDown(Swap(s, i, swaps[0] % (i + 1)), i - 1, swaps[1..])
  }

  function Shuffle<T>(s: seq<T>, swaps: seq<nat>): (r: seq<T>)
    requires |swaps| >= |s| - 1
    ensures |r| == |s| && multiset(r) == multiset(s)
  {
    if |s| == 0 then s else ShuffleDown(s, |s| - 1, swaps)
  }

  lemma {:induction false} DistinctCounts<T>(s: seq<T>)
    ensures Distinct(s) <==> forall x :: multiset(s)[x] <= 1
  {
    if |s| > 0 {
      var h, t := s[0], s[1..];
      assert s == [h] + t;
      assert multiset(s) == multiset{h} + multiset(t);
      DistinctCounts(t);
      if Distinct(s) {
        forall k | 0 <= k < |t|
          ensures t[k] != h
        {
          assert t[k] == s[k + 1];
        }
        assert Distinct(t) by {
          forall i, j | 0 <= i < j < |t|
            ensures t[i] != t[j]
          {
            assert t[i] == s[i + 1] && t[j] == s[j + 1];
          }
        }
      } else {
        var i, j :| 0 <= i < j < |s| && s[i] == s[j];
        if i == 0 {
          assert t[j - 1] == h;
          assert multiset(t)[h] >= 1;
          assert multiset(s)[h] >= 2;
        } else {
          assert t[i - 1] == t[j - 1];
          assert !Distinct(t);
          var x :| multiset(t)[x] > 1;
          assert multiset(s)[x] > 1;
        }
      }
    }
  }

  /** A duplicate-free list stays duplicate-free under any reordering. */
  lemma DistinctPermutation<T>(s: seq<T>, r: seq<T>)
    requires Distinct(s) && multiset(r) == multiset(s)
    ensures Distinct(r)
  {
    DistinctCounts(s);
    DistinctCounts(r);
  }

  /** Three distinct distractors and the answer, in any order, make well-formed choices. */
  lemma ChoicesFromDistractors(catalog: seq<WordEntry>, wid: Id, kind: QType, correct: string,
                               ds: seq<string>, choices: seq<string>)
    requires |ds| == 3 && Distinct(ds)
    requires forall k :: 0 <= k < 3 ==> IsDistractor(catalog, wid, kind, correct, ds[k])
    requires multiset(choices) == multiset(ds + [correct])
    ensures |choices| == 4 && Distinct(choices) && multiset(choices)[correct] == 1
    ensures forall k :: 0 <= k < 4 ==> choices[k] == correct || IsDistractor(catalog, wid, kind, correct, choices[k])
  {
    var before := ds + [correct];
    assert Distinct(before);
    DistinctPermutation(before, choices);
    assert |choices| == |multiset(choices)| == |before|;
    assert correct !in ds;
    assert multiset(before) == multiset(ds) + multiset{correct};
    forall k | 0 <= k < 4
      ensures choices[k] == correct || IsDistractor(catalog, wid, kind, correct, choices[k])
    {
      assert choices[k] in multiset(choices);
      assert choices[k] in before;
    }
  }

  // ---------------------------------------------------------------- questions

  /** Four distinct choices, the answer exactly once, every other choice a distractor. */
  predicate WellFormed(catalog: seq<WordEntry>, q: Question) {
    && |q.choices| == 4
    && Distinct(q.choices)
    && multiset(q.choices)[q.correct] == 1
    && forall k :: 0 <= k < 4 ==>
         q.choices[k] == q.correct || IsDistractor(catalog, q.word.id, q.qtype, q.correct, q.choices[k])
  }

  /** `buildQuestion`: None when the draws ran out before three distractors were found. */
  function BuildQuestion(catalog: seq<WordEntry>, kind: QType, w: WordEntry, picks: seq<nat>, swaps: seq<nat>)
    : (r: Option<Question>)
    requires |swaps| >= 3
    ensures r.Some? <==> SampleDistractors(catalog, w.id, kind, CorrectAnswer(kind, w), picks, []).Some?
    ensures r.Some? ==> WellFormed(catalog, r.value)
    ensures r.Some? ==> && r.value.qtype == kind && r.value.word == w
                        && r.value.correct == CorrectAnswer(kind, w) && r.value.stem == Stem(kind, w)
    ensures r.Some? ==> multiset(r.value.choices)
                        == multiset(SampleDistractors(catalog, w.id, kind, CorrectAnswer(kind, w), picks, []).value
                                    + [CorrectAnswer(kind, w)])
  {
    var correct := CorrectAnswer(kind, w);
    match SampleDistractors(catalog, w.id, kind, correct, picks, [])
    case None => None
    case Some(ds) =>
      var choices := Shuffle(ds + [correct], swaps);
      ChoicesFromDistractors(catalog, w.id, kind, correct, ds, choices);
      Some(Question(kind, w, Stem(kind, w), choices, correct))
  }

  /** The shuffle can put the answer in any of the four positions. */
  lemma CorrectCanLandAnywhere(catalog: seq<WordEntry>, kind: QType, w: WordEntry, picks: seq<nat>, p: nat)
    requires p < 4
    requires SampleDistractors(catalog, w.id, kind, CorrectAnswer(kind, w), picks, []).Some?
    ensures BuildQuestion(catalog, kind, w, picks, [p, 2, 1]).Some?
    ensures BuildQuestion(catalog, kind, w, picks, [p, 2, 1]).value.choices[p] == CorrectAnswer(kind, w)
  {
    var correct := CorrectAnswer(kind, w);
    var ds := SampleDistractors(catalog, w.id, kind, correct, picks, []).value;
    ShuffleMovesLastTo(ds + [correct], p, [p, 2, 1]);
  }

  /** Draws 2 then 1 for positions 2 and 1 swap nothing. */
  lemma ShuffleFixedTail<T>(s: seq<T>, swaps: seq<nat>)
    requires |s| == 4 && |swaps| == 2 && swaps[0] == 2 && swaps[1] == 1
    ensures ShuffleDown(s, 2, swaps) == s
  {
    assert Swap(s, 2, 2) == s;
    assert Swap(s, 1, 1) == s;
    assert ShuffleDown(s, 1, swaps[1..]) == ShuffleDown(s, 0, swaps[1..][1..]);
  }

  /** Draws p, 2, 1 move the last of four items to position p and leave it there. */
  lemma ShuffleMovesLastTo<T>(s0: seq<T>, p: nat, swaps: seq<nat>)
    requires |s0| == 4 && p < 4
    requires |swaps| == 3 && swaps[0] == p && swaps[1] == 2 && swaps[2] == 1
    ensures Shuffle(s0, swaps)[p] == s0[3]
  {
    var s1 := Swap(s0, 3, p);
    ShuffleFixedTail(s1, swaps[1..]);
    ModOfSmaller(p, 4);
    assert Shuffle(s0, swaps) == ShuffleDown(s1, 2, swaps[1..]);
  }

  /**
   The builder with the termination guard the sampling loop lacks: starvation
   is detected before sampling and reported instead of drawing forever. An
   empty catalog, where the source's first draw reads an undefined entry and
   throws, is reported as such.
   */
  function BuildQuestionGuarded(catalog: seq<WordEntry>, kind: QType, w: WordEntry, picks: seq<nat>, swaps: seq<nat>)
    : (r: Result<Question, QuizError>)
    requires |swaps| >= 3
    ensures r == Failure(EmptyCatalog) <==> |catalog| == 0
    ensures r == Failure(Starved) <==> |catalog| > 0 && |Candidates(catalog, w.id, kind, CorrectAnswer(kind, w))| < 3
    ensures r.Success? <==> BuildQuestion(catalog, kind, w, picks, swaps).Some?
    ensures r.Success? ==> r.value == BuildQuestion(catalog, kind, w, picks, swaps).value
  {
    var correct := CorrectAnswer(kind, w);
    if |catalog| == 0 then
      StarvedSamplingNeverCompletes(catalog, w.id, kind, correct, picks);
      Failure(EmptyCatalog)
    else if |Candidates(catalog, w.id, kind, correct)| < 3 then
      StarvedSamplingNeverCompletes(catalog, w.id, kind, correct, picks);
      Failure(Starved)
    else
      match BuildQuestion(catalog, kind, w, picks, swaps)
      case None => Failure(OutOfDraws)
      case Some(q) => Success(q)
  }

  // ---------------------------------------------------------------- session selection

  /** Some catalog entry carries the id. */
  predicate HasId(catalog: seq<WordEntry>, id: Id) {
    exists i :: 0 <= i < |catalog| && catalog[i].id == id
  }

  lemma HasIdTail(catalog: seq<WordEntry>, id: Id)
    requires |catalog| > 0
    ensures HasId(catalog, id) <==> catalog[0].id == id || HasId(catalog[1..], id)
  {
    if HasId(catalog[1..], id) {
      var i :| 0 <= i < |catalog[1..]| && catalog[1..][i].id == id;
      assert catalog[i + 1].id == id;
    }
    if HasId(catalog, id) && catalog[0].id != id {
      var i :| 0 <= i < |catalog| && catalog[i].id == id;
      assert catalog[1..][i - 1].id == id;
    }
  }

  /** Ids of the catalog entries that are not mastered, in catalog order. */
  function LearningIds(catalog: seq<WordEntry>, p: Progress): (r: seq<Id>)
    ensures |r| <= |catalog|
    ensures forall id :: id in r <==> !IsMastered(p, id) && HasId(catalog, id)
  {
    if |catalog| == 0 then []
    else
      var rest := LearningIds(catalog[1..], p);
      assert forall id :: HasId(catalog, id) <==> catalog[0].id == id || HasId(catalog[1..], id) by {
        forall id
          ensures HasId(catalog, id) <==> catalog[0].id == id || HasId(catalog[1..], id)
        {
          HasIdTail(catalog, id);
        }
      }
      if IsMastered(p, catalog[0].id) then rest else [catalog[0].id] + rest
  }

  /** `WORDS.find(x => x.id === id)`: the first entry with that id. */
  function FindById(catalog: seq<WordEntry>, id: Id): (r: Option<WordEntry>)
    ensures r.Some? <==> HasId(catalog, id)
    ensures r.Some? ==> r.value.id == id && r.value in catalog
    ensures r.Some? ==> exists i :: FirstWithId(catalog, id, i) && catalog[i] == r.value
  {
    if |catalog| == 0 then None
    else if catalog[0].id == id then
      assert FirstWithId(catalog, id, 0);
      Some(catalog[0])
    else
      HasIdTail(catalog, id);
      var rest := FindById(catalog[1..], id);
      assert rest.Some? ==> exists i :: FirstWithId(catalog, id, i) && catalog[i] == rest.value by {
        if rest.Some? {
          var i :| FirstWithId(catalog[1..], id, i) && catalog[1..][i] == rest.value;
          assert FirstWithId(catalog, id, i + 1);
        }
      }
      rest
  }

  /** Position `i` holds the first entry of the catalog with that id. */
  predicate FirstWithId(catalog: seq<WordEntry>, id: Id, i: int) {
    0 <= i < |catalog| && catalog[i].id == id && forall j :: 0 <= j < i ==> catalog[j].id != id
  }

  /**
   `nextQuestion`'s choice of word: a non-mastered word when there is one,
   otherwise any word (review mode); None for an empty catalog, where the
   source throws.
   */
  function SelectWord(catalog: seq<WordEntry>, p: Progress, draw: nat): (r: Option<WordEntry>)
    ensures r.Some? <==> |catalog| > 0
    ensures r.Some? ==> r.value in catalog
    ensures r.Some? && (exists i :: 0 <= i < |catalog| && !IsMastered(p, catalog[i].id)) ==>
      !IsMastered(p, r.value.id)
    ensures r.Some? && (forall i :: 0 <= i < |catalog| ==> IsMastered(p, catalog[i].id)) ==>
      r.value.id == catalog[draw % |catalog|].id
  {
    var pool := LearningIds(catalog, p);
    if |pool| > 0 then
      assert HasId(catalog, pool[draw % |pool|]);
      FindById(catalog, pool[draw % |pool|])
    else if |catalog| == 0 then None
    else
      assert HasId(catalog, catalog[draw % |catalog|].id);
      FindById(catalog, catalog[draw % |catalog|].id)
  }

  /** In review mode, once every word is mastered, every word can be the next one chosen. */
  lemma EveryWordReachableInReview(catalog: seq<WordEntry>, p: Progress, k: nat)
    requires k < |catalog| && forall i :: 0 <= i < |catalog| ==> IsMastered(p, catalog[i].id)
    ensures exists draw: nat :: SelectWord(catalog, p, draw).Some? && SelectWord(catalog, p, draw).value.id == catalog[k].id
  {
    assert k % |catalog| == k;
    assert SelectWord(catalog, p, k).value.id == catalog[k].id;
  }

  /** Every non-mastered word can be the next one chosen. */
  lemma EveryLearningWordReachable(catalog: seq<WordEntry>, p: Progress, k: nat)
    requires k < |catalog| && !IsMastered(p, catalog[k].id)
    ensures exists draw: nat :: SelectWord(catalog, p, draw).Some? && SelectWord(catalog, p, draw).value.id == catalog[k].id
  {
    var pool := LearningIds(catalog, p);
    assert HasId(catalog, catalog[k].id);
    var j :| 0 <= j < |pool| && pool[j] == catalog[k].id;
    assert j % |pool| == j;
    var r := SelectWord(catalog, p, j);
    assert r == FindById(catalog, pool[j]);
    assert r.value.id == catalog[k].id;
  }

  /**
   `newQuestionFor`: rotate the kind away from the word's last one, then build.
   A question is produced exactly when the sampling loop for the chosen kind
   ends on the given draws.
   */
  function NewQuestionFor(catalog: seq<WordEntry>, p: Progress, w: WordEntry,
                          typeDraw: nat, picks: seq<nat>, swaps: seq<nat>): (r: Result<Question, QuizError>)
    requires |swaps| >= 3
    ensures r.Success? ==> WellFormed(catalog, r.value) && r.value.word == w
    ensures r.Success? ==> RecordOf(p, w.id).lastType != Some(r.value.qtype)
    ensures r == Failure(EmptyCatalog) <==> |catalog| == 0
    ensures var k := ChooseType(RecordOf(p, w.id).lastType, typeDraw);
      r.Success? <==> |catalog| > 0 && SampleDistractors(catalog, w.id, k, CorrectAnswer(k, w), picks, []).Some?
    ensures var k := ChooseType(RecordOf(p, w.id).lastType, typeDraw);
      r == Failure(Starved) <==> |catalog| > 0 && |Candidates(catalog, w.id, k, CorrectAnswer(k, w))| < 3
    ensures r.Success? ==> r.value.qtype == ChooseType(RecordOf(p, w.id).lastType, typeDraw)
  {
    var kind := ChooseType(RecordOf(p, w.id).lastType, typeDraw);
    BuildQuestionGuarded(catalog, kind, w, picks, swaps)
  }

  /**
   `nextQuestion`: select a word and build a question for it. On a non-empty
   catalog a question is produced exactly when the sampling loop for the
   selected word and its rotated kind ends on the given draws.
   */
  function NextQuestion(catalog: seq<WordEntry>, p: Progress,
                        wordDraw: nat, typeDraw: nat, picks: seq<nat>, swaps: seq<nat>): (r: Result<Question, QuizError>)
    requires |swaps| >= 3
    ensures r == Failure(EmptyCatalog) <==> |catalog| == 0
    ensures r.Success? ==> WellFormed(catalog, r.value) && r.value.word in catalog
    ensures r.Success? ==> RecordOf(p, r.value.word.id).lastType != Some(r.value.qtype)
    ensures r.Success? && (exists i :: 0 <= i < |catalog| && !IsMastered(p, catalog[i].id)) ==>
      !IsMastered(p, r.value.word.id)
    ensures SelectWord(catalog, p, wordDraw).Some? ==>
      var w := SelectWord(catalog, p, wordDraw).value;
      var k := ChooseType(RecordOf(p, w.id).lastType, typeDraw);
      && (r.Success? <==> SampleDistractors(catalog, w.id, k, CorrectAnswer(k, w), picks, []).Some?)
      && (r == Failure(Starved) <==> |Candidates(catalog, w.id, k, CorrectAnswer(k, w))| < 3)
      && (r.Success? ==> r.value.word == w && r.value.qtype == k)
  {
    match SelectWord(catalog, p, wordDraw)
    case None => Failure(EmptyCatalog)
    case Some(w) => NewQuestionFor(catalog, p, w, typeDraw, picks, swaps)
  }
}

=== FILE: settings.dfy ===
/**
 The settings screen and card navigation: saving the goal and deadline,
 importing a previously exported document, the confirmed reset, and the
 wrap-around previous/next moves through the catalog.
 */
module Settings {

  import opened Wrappers
  import opened Vocab
  import opened Grading
  import opened Dashboard
  import Quiz

  // ---------------------------------------------------------------- goal

  /**
   `saveGoal`. `parsed` is the integer read from the goal field (None when it
   does not parse); `deadlineInput` is the raw date field, "" when empty.
   */
  function SaveGoal(s: Stats, parsed: Option<int>, deadlineInput: string): (r: Stats)
    ensures parsed.Some? && parsed.value > 0 ==> r.overall.goal == parsed.value
    ensures !(parsed.Some? && parsed.value > 0) ==> r.overall.goal == s.overall.goal
    ensures r.overall.deadline.None? <==> deadlineInput == ""
    ensures r.overall.deadline.Some? ==> r.overall.deadline.value == deadlineInput
    ensures r.overall.mastered == s.overall.mastered && r.overall.learning == s.overall.learning
    ensures r.dailyStats == s.dailyStats && r.typeAcc == s.typeAcc
  {
    var goal := if parsed.Some? && parsed.value > 0 then parsed.value else s.overall.goal;
    var deadline := if deadlineInput == "" then None else Some(deadlineInput);
    s.(overall := s.overall.(goal := goal, deadline := deadline))
  }

  /** A positive goal can never be cleared from the settings screen. */
  lemma SaveGoalKeepsGoalSet(s: Stats, parsed: Option<int>, deadlineInput: string, daysLeft: int)
    requires s.overall.goal > 0 || (parsed.Some? && parsed.value > 0)
    ensures SaveGoal(s, parsed, deadlineInput).overall.goal > 0
    ensures GoalPanel(SaveGoal(s, parsed, deadlineInput).overall, daysLeft).GoalProgress?
  {
  }

  /** Saving the same inputs twice is the same as saving them once. */
  lemma SaveGoalIdempotent(s: Stats, parsed: Option<int>, deadlineInput: string)
    ensures SaveGoal(SaveGoal(s, parsed, deadlineInput), parsed, deadlineInput) == SaveGoal(s, parsed, deadlineInput)
  {
  }

  // ---------------------------------------------------------------- import / reset

  /** A parsed import document; a field that is absent or falsy is None. */
  datatype ImportDoc = ImportDoc(progress: Option<Progress>, stats: Option<Stats>)

  /**
   `importData`. `doc` is None when the file does not parse, which leaves
   everything as it was. Each present field replaces the current one
   wholesale, then the totals are recounted; bookmarks are not part of the
   document.
   */
  function ImportData(catalog: seq<WordEntry>, st: Store, doc: Option<ImportDoc>): (r: Store)
    ensures doc.None? ==> r == st
    ensures r.bookmarks == st.bookmarks
    ensures doc.Some? ==> CountsFresh(catalog, r.progress, r.stats)
    ensures doc.Some? ==> r.progress == (if doc.value.progress.Some? then doc.value.progress.value else st.progress)
    ensures doc.Some? ==>
      var base := if doc.value.stats.Some? then doc.value.stats.value else st.stats;
      r.stats.dailyStats == base.dailyStats && r.stats.typeAcc == base.typeAcc &&
      r.stats.overall.goal == base.overall.goal && r.stats.overall.deadline == base.overall.deadline
  {
    match doc
    case None => st
    case Some(d) =>
      var p := if d.progress.Some? then d.progress.value else st.progress;
      var s := if d.stats.Some? then d.stats.value else st.stats;
      Store(p, RecalcCounts(catalog, p, s), st.bookmarks)
  }

  /** The document `exportData` writes: the whole progress map and statistics record. */
  function ExportDoc(st: Store): ImportDoc {
    ImportDoc(Some(st.progress), Some(st.stats))
  }

  /** Importing what was just exported changes nothing, as long as the stored totals were fresh. */
  lemma ExportImportRoundTrip(catalog: seq<WordEntry>, st: Store)
    requires CountsFresh(catalog, st.progress, st.stats)
    ensures ImportData(catalog, st, Some(ExportDoc(st))) == st
  {
    var r := ImportData(catalog, st, Some(ExportDoc(st)));
    assert r.stats.overall == st.stats.overall;
  }

  /** Importing the same document twice is the same as importing it once. */
  lemma ImportIdempotent(catalog: seq<WordEntry>, st: Store, doc: Option<ImportDoc>)
    ensures ImportData(catalog, ImportData(catalog, st, doc), doc) == ImportData(catalog, st, doc)
  {
    if doc.Some? {
      var once := ImportData(catalog, st, doc);
      var twice := ImportData(catalog, once, doc);
      assert twice.stats.overall == once.stats.overall;
    }
  }

  /**
   `resetAll`. When confirmed, progress is emptied and the statistics return
   to the defaults, recounted so that every catalog word is learning; the
   bookmarks are kept.
   */
  function ResetAll(catalog: seq<WordEntry>, st: Store, confirmed: bool): (r: Store)
    ensures !confirmed ==> r == st
    ensures confirmed ==> r.progress == map[] && r.bookmarks == st.bookmarks
    ensures confirmed ==> r.stats.dailyStats == map[] && r.stats.typeAcc == ZeroTypeAcc
    ensures confirmed ==> r.stats.overall == Overall(0, |catalog|, DefaultGoal, None)
  {
    if confirmed then
      TallyOfEmptyProgress(catalog);
      Store(map[], RecalcCounts(catalog, map[], DefaultStats), st.bookmarks)
    else st
  }

  /** After a reset the store is consistent and the whole catalog is back in the session pool. */
  lemma ResetRestartsEverything(catalog: seq<WordEntry>, st: Store)
    ensures StatsConsistent(ResetAll(catalog, st, true).stats)
    ensures ProgressConsistent(ResetAll(catalog, st, true).progress)
    ensures CountsFresh(catalog, ResetAll(catalog, st, true).progress, ResetAll(catalog, st, true).stats)
    ensures |Quiz.LearningIds(catalog, ResetAll(catalog, st, true).progress)| == |catalog|
  {
    var r := ResetAll(catalog, st, true);
    LearningTotalIsPoolSize(catalog, r.progress);
    TallyOfEmptyProgress(catalog);
    assert StatsConsistent(r.stats) by {
      forall t | t in r.stats.typeAcc
        ensures r.stats.typeAcc[t].c <= r.stats.typeAcc[t].a
      {
        assert r.stats.typeAcc[t] == Acc(0, 0);
      }
    }
  }

  // ---------------------------------------------------------------- card navigation

  /**
   The next card, `(idx + 1) % n`. With an empty catalog the source computes
   NaN, modelled as None.
   */
  function NextCard(idx: nat, n: nat): (r: Option<nat>)
    ensures r.None? <==> n == 0
    ensures r.Some? ==> r.value < n
    ensures idx + 1 < n ==> r == Some(idx + 1)
    ensures n > 0 && idx == n - 1 ==> r == Some(0)
  {
    if n == 0 then None else Some((idx + 1) % n)
  }

  /** The previous card, `(idx - 1 + n) % n`; None for an empty catalog. */
  function PrevCard(idx: nat, n: nat): (r: Option<nat>)
    ensures r.None? <==> n == 0
    ensures r.Some? ==> r.value < n
    ensures 0 < idx <= n ==> r == Some(idx - 1)
    ensures n > 0 && idx == 0 ==> r == Some(n - 1)
  {
    if n == 0 then None else Some((idx - 1 + n) % n)
  }

  /** Previous undoes next and next undoes previous on every valid index. */
  lemma PrevNextInverse(idx: nat, n: nat)
    requires idx < n
    ensures PrevCard(NextCard(idx, n).value, n) == Some(idx)
    ensures NextCard(PrevCard(idx, n).value, n) == Some(idx)
  {
  }
}

=== FILE: text.dfy ===
/**
 String helpers the engine needs: the first case-insensitive occurrence used to
 blank out the word in a cloze stem, and the string order that
 `Array.prototype.sort` applies to date keys (code-point order, which agrees
 with the UTF-16 code-unit order the sort uses on the ISO date keys `grade`
 writes).
 */
module Text {

  import opened Wrappers

  /** ASCII case folding: 'A'..'Z' map to 'a'..'z', everything else is kept. */
  function Lower(c: char): char {
    if 'A' <= c <= 'Z' then (c as int + 32) as char else c
  }

  predicate EqIgnoreCase(a: string, b: string) {
    |a| == |b| && forall k :: 0 <= k < |a| ==> Lower(a[k]) == Lower(b[k])
  }

  /** The pattern occurs, up to ASCII case, in the text at position i. */
  predicate MatchAt(text: string, pat: string, i: nat) {
    i + |pat| <= |text| && EqIgnoreCase(text[i..i + |pat|], pat)
  }

  /** The first position at or after `from` where the pattern occurs, ignoring ASCII case. */
  function FindFrom(text: string, pat: string, from: nat): (r: Option<nat>)
    ensures r.Some? ==> from <= r.value && MatchAt(text, pat, r.value)
    ensures r.Some? ==> forall j :: from <= j < r.value ==> !MatchAt(text, pat, j)
    ensures r.None? ==> forall j :: from <= j ==> !MatchAt(text, pat, j)
    decreases |text| - from
  {
    if from + |pat| > |text| then None
    else if EqIgnoreCase(text[from..from + |pat|], pat) then Some(from)
    else FindFrom(text, pat, from + 1)
  }

  const Blank: string := "____"

  /**
   `text.replace(new RegExp(pat, 'i'), '____')` for a pattern without regular
   expression metacharacters: the first case-insensitive occurrence becomes the
   blank; without one the text is returned as is.
   */
  function ReplaceFirstIgnoreCase(text: string, pat: string): (r: string)
    ensures (forall j :: !MatchAt(text, pat, j)) ==> r == text
    ensures forall i: nat :: MatchAt(text, pat, i) && (forall j: nat :: j < i ==> !MatchAt(text, pat, j)) ==>
      r == text[..i] + Blank + text[i + |pat|..]
  {
    match FindFrom(text, pat, 0)
    case None => text
    case Some(i) => text[..i] + Blank + text[i + |pat|..]
  }

  /**
   Strict code-point order on strings. The default `sort()` compares UTF-16
   code units; the two orders agree on strings within the Basic Multilingual
   Plane, which includes every ISO date key.
   */
  predicate Before(a: string, b: string)
    decreases |a|
  {
    |b| > 0 && (|a| == 0 || a[0] < b[0] || (a[0] == b[0] && Before(a[1..], b[1..])))
  }

  lemma {:induction false} BeforeIrreflexive(a: string)
    ensures !Before(a, a)
    decreases |a|
  {
    if |a| > 0 {
      BeforeIrreflexive(a[1..]);
    }
  }

  lemma {:induction false} BeforeTransitive(a: string, b: string, c: string)
    requires Before(a, b) && Before(b, c)
    ensures Before(a, c)
    decreases |a|
  {
    if |a| > 0 && a[0] == b[0] && b[0] == c[0] {
      BeforeTransitive(a[1..], b[1..], c[1..]);
    }
  }

  lemma {:induction false} BeforeTotal(a: string, b: string)
    requires a != b
    ensures Before(a, b) || Before(b, a)
    decreases |a|
  {
    if |a| > 0 && |b| > 0 && a[0] == b[0] {
      assert a == [a[0]] + a[1..] && b == [b[0]] + b[1..];
      BeforeTotal(a[1..], b[1..]);
    }
  }
}

=== FILE: vocab.dfy ===
/**
 The data model of the flash-card trainer: the immutable word catalog, the
 per-word progress records, the statistics record and the bookmark set, plus
 the get-or-create defaults the engine applies on first touch.
 */
module Vocab {

  import opened Wrappers

  type Id = string

  /** The three question kinds ('syn', 'cloze', 'ant'). */
  datatype QType = Syn | Cloze | Ant

  /** The order in which the engine lists the kinds. */
  const AllTypes: seq<QType> := [Syn, Cloze, Ant]

  datatype Status = Learning | Mastered

  /** A catalog entry; a field missing from the catalog is an empty list. */
  datatype WordEntry = WordEntry(
    id: Id,
    word: string,
    pos: string,
    definitions: seq<string>,
    examples: seq<string>,
    synonyms: seq<string>,
    antonyms: seq<string>)

  /** A correct/attempted pair ({c, a}). */
  datatype Acc = Acc(c: nat, a: nat)

  datatype ProgressRecord = ProgressRecord(
    status: Status,
    wrong: nat,
    right: nat,
    lastSeen: Option<int>,
    lastType: Option<QType>,
    typeAcc: map<QType, Acc>)

  datatype DailyStat = DailyStat(attempted: nat, correct: nat, newMastered: nat, spark: seq<int>)

  datatype Overall = Overall(mastered: nat, learning: nat, goal: int, deadline: Option<string>)

  datatype Stats = Stats(dailyStats: map<string, DailyStat>, overall: Overall, typeAcc: map<QType, Acc>)

  type Progress = map<Id, ProgressRecord>

  /** Everything the engine mutates: progress, statistics and bookmarks. */
  datatype Store = Store(progress: Progress, stats: Stats, bookmarks: set<Id>)

  const DefaultGoal: int := 300

  const ZeroTypeAcc: map<QType, Acc> := map[Syn := Acc(0, 0), Cloze := Acc(0, 0), Ant := Acc(0, 0)]

  /** The record created on first touch of a word. */
  const FreshRecord: ProgressRecord := ProgressRecord(Learning, 0, 0, None, None, ZeroTypeAcc)

  const FreshDay: DailyStat := DailyStat(0, 0, 0, [])

  const DefaultStats: Stats := Stats(map[], Overall(0, 0, DefaultGoal, None), ZeroTypeAcc)

  /** `xs && xs[0]`: the first element, or the falsy "" when there is none. */
  function First(xs: seq<string>): string {
    if |xs| > 0 then xs[0] else ""
  }

  /** JavaScript `a || b` on strings: the empty string is falsy. */
  function OrElse(a: string, b: string): string {
    if a != "" then a else b
  }

  function RecordOf(p: Progress, id: Id): ProgressRecord {
    if id in p then p[id] else FreshRecord
  }

  function DayOf(s: Stats, day: string): DailyStat {
    if day in s.dailyStats then s.dailyStats[day] else FreshDay
  }

  function AccOf(m: map<QType, Acc>, t: QType): Acc {
    if t in m then m[t] else Acc(0, 0)
  }

  /** `progress[id]?.status === 'mastered'`; a word without a record is learning. */
  predicate IsMastered(p: Progress, id: Id) {
    id in p && p[id].status == Mastered
  }

  lemma AllTypesListsEveryKind()
    ensures forall t: QType :: t in AllTypes
  {
    forall t: QType
      ensures t in AllTypes
    {
      match t
      case Syn => assert AllTypes[0] == t;
      case Cloze => assert AllTypes[1] == t;
      case Ant => assert AllTypes[2] == t;
    }
  }

  predicate Distinct<T(==)>(s: seq<T>) {
    forall i, j :: 0 <= i < j < |s| ==> s[i] != s[j]
  }

  /** The counters can never be ahead of what was attempted. */
  predicate DayConsistent(d: DailyStat) {
    d.correct <= d.attempted && d.newMastered <= d.correct && |d.spark| == d.attempted
  }

  predicate StatsConsistent(s: Stats) {
    && (forall day :: day in s.dailyStats ==> DayConsistent(s.dailyStats[day]))
    && (forall t :: t in s.typeAcc ==> s.typeAcc[t].c <= s.typeAcc[t].a)
  }

  /** A word only becomes mastered through a correct answer, which counts as right. */
  predicate ProgressConsistent(p: Progress) {
    forall id :: id in p && p[id].status == Mastered ==> p[id].right > 0
  }
}

=== FILE: wrappers.dfy ===
/** The Option and Result types shared by every module. */
module Wrappers {

  datatype Option<+T> = None | Some(value: T)

  datatype Result<+R, +E> = Success(value: R) | Failure(error: E)
}
